=== FILE: README.md ===
# ISO failure-code tables and prompts, modelled in Dafny

The failure-code page of the ISO 14224 chatbot turns the failure-mode
tables of the standard into decision matrices. Then, for each chat message,
it builds the instruction prefix for a table-reasoning agent and hands the
agent the message. When the message contains a greeting key, the prefix is
a canned reply in place of the instructions. This project models the page's pure layer, which
exists in two near-identical copies (`pages/` and `views/`):

- `transform_value` — the per-cell coercion. A missing cell becomes 0, the
  marker `X` becomes 1, and anything else is kept. Module `Cells`.
- `clean_df` — the normalisation of a failure-mode sheet, in modules
  `Frames`, `Sorting` and `Normalize`:
  - drop the `Examples` and `Type c` columns;
  - make blanks missing;
  - transpose;
  - promote the last row to column labels;
  - order the columns by label with `sorted`;
  - coerce every cell.
- `pdf_to_df` — module `Extraction`:
  - the choice of table per page;
  - the three-way header repair;
  - `pd.concat` of the pages in list order;
  - the final `clean_df`.
- `template_formation` and `maintenance_template` — module `Prompts`:
  - the greeting routing, an ordered substring search over the
    lower-cased question;
  - the glossary line of the 21 failure codes;
  - the assembly of the instruction text, which embeds the rendered table
    and the question verbatim;
  - the request `response_generator` hands the agent: that text as the
    prefix, the message itself as the input.

Every pandas, PyMuPDF or `sorted` exception the pipeline can raise is a
`Failure` of one `Error` datatype. Examples:

- `drop` of an absent label raises `KeyError`; here it is `MissingColumns`.
  It carries the absent labels when the frame's labels are unique, and the
  whole request when some label repeats, as pandas reports them.
- `sorted` over labels of mixed kinds raises `TypeError`; here it is
  `UnorderableLabels`.
- `iloc[-1]` on a transposed frame with no rows is `EmptyTable`.
- `tabs[0]` on a page without tables is `NoTableFound`.
- `pd.concat` of an empty list is `NothingToConcatenate`.
- An outer join where some page repeats a label is `NonUniqueColumns`.

A cell is `Missing` (NaN/None), `Num(n)` or `Str(s)`. Python's order on
strings is modelled as the lexicographic order on code points. The rendered
table (`str(df)`) is an opaque string.

The two copies differ in three places:

- `template_formation`. The `views/` copy has no greeting routing,
  and its example table has two columns. It is `Prompt` applied to
  `TwoColumnWording`. The `pages/` copy is `Respond` applied to
  `FailureWording`.
- `maintenance_template` exists only in the `pages/` copy
  (pages/ISO_Failure_Code_Intelligence.py:153-184). It is
  `MaintenanceTemplate`, which is `Respond` applied to `MaintenanceWording`.
- The `pages/` copy defines `transform_value` a second time
  (pages/ISO_Failure_Code_Intelligence.py:187-193). The second definition
  replaces the first when the module loads, and behaves the same, so
  `Cells.Coerce` models both.

The `views/` copy's `transform_value`, `clean_df` and `pdf_to_df`
(views/ISO_Failure_Code_Intelligence.py:17-57) match the `pages/` copy line
for line. The same members model both copies.

Greeting keys are matched as substrings, exactly as the code does. So for
a question such as "Which pumps failed?" `template_formation` returns the
hello reply in place of the instructions (`Prompts.SubstringGreeting`).
`response_generator` still calls the agent, with that reply as its prefix
and the question as its input (`Prompts.GreetingStillReachesAgent`). This is the modelled
behaviour. The model keeps it and does not correct it.

## Model

| member | source | states |
|---|---|---|
| Cells.Coerce | pages/ISO_Failure_Code_Intelligence.py:23-29 | a missing cell becomes 0 and exactly `X` becomes 1; the result differs from the input iff the input is missing or exactly `X`; the result is never missing or `X` |
| Cells.CoerceIdempotent | pages/ISO_Failure_Code_Intelligence.py:23-29 | coercing twice equals coercing once |
| Cells.CoercePassesThrough | pages/ISO_Failure_Code_Intelligence.py:26-29 | lower-case `x`, the empty string and every number pass through unchanged |
| Cells.Blank | pages/ISO_Failure_Code_Intelligence.py:33 | empty text becomes missing and nothing else changes; no empty text survives |
| Cells.CoerceBlank | pages/ISO_Failure_Code_Intelligence.py:33-39 | after blanking and coercion, a cell is 0 iff it was missing, empty or 0, and is 1 iff it was `X` or 1; any other cell is kept |
| Cells.StrLeAntisymmetric | pages/ISO_Failure_Code_Intelligence.py:37 | Python's string order is antisymmetric |
| Cells.StrLeTransitive | pages/ISO_Failure_Code_Intelligence.py:37 | Python's string order is transitive |
| Cells.StrLeTotal | pages/ISO_Failure_Code_Intelligence.py:37 | any two strings are comparable |
| Cells.LeTransitive | pages/ISO_Failure_Code_Intelligence.py:37 | the cell order used for sorting labels is transitive |
| Cells.LeAntisymmetric | pages/ISO_Failure_Code_Intelligence.py:37 | the cell order is antisymmetric, so equal-ranked labels are equal |
| Sorting.Insert | pages/ISO_Failure_Code_Intelligence.py:37 | inserting into a sorted list keeps it sorted and adds exactly that element |
| Sorting.SortCells | pages/ISO_Failure_Code_Intelligence.py:37 | `sorted` returns an ascending rearrangement (same multiset) of the labels |
| Sorting.SortedUnique | pages/ISO_Failure_Code_Intelligence.py:37 | two sorted rearrangements of one multiset are equal, so the model's sort agrees with Python's |
| Sorting.PermutationDistinct | pages/ISO_Failure_Code_Intelligence.py:37 | a rearrangement of labels without repeats has no repeats |
| Sorting.DistinctMultiplicity | pages/ISO_Failure_Code_Intelligence.py:37 | a label occurs at most once in a list without repeats |
| Frames.Absent | pages/ISO_Failure_Code_Intelligence.py:32 | the labels that `drop` names when the frame's labels are unique: exactly the requested labels the frame lacks |
| Frames.DropColumns | pages/ISO_Failure_Code_Intelligence.py:32 | `drop` fails iff a requested label is absent; the error names the absent labels when the frame's labels are unique and the whole request when some label repeats; otherwise it keeps every other column, with its data, in the original order |
| Frames.BlankAll | pages/ISO_Failure_Code_Intelligence.py:33 | every cell is blanked, and the labels and the shape are kept |
| Frames.Transpose | pages/ISO_Failure_Code_Intelligence.py:34 | column labels become row labels; cell (c, i) of the result is cell (i, c) of the frame |
| Frames.PromoteLastRow | pages/ISO_Failure_Code_Intelligence.py:35-36 | fails iff there are no rows; otherwise the last row becomes the column labels and its row label becomes the axis name, and the row leaves the data |
| Frames.SortLabels | pages/ISO_Failure_Code_Intelligence.py:37 | `sorted` fails iff at least two labels are not all text or all numbers; otherwise it returns an ascending rearrangement |
| Frames.Select | pages/ISO_Failure_Code_Intelligence.py:37 | `frame[keys]` selects exactly the columns whose label is among the keys |
| Frames.SelectBlock | pages/ISO_Failure_Code_Intelligence.py:37 | the selection holds, for each key in turn and at an offset fixed by the earlier keys, every position carrying that key in ascending order |
| Frames.SelectFlattens | pages/ISO_Failure_Code_Intelligence.py:37 | `frame[keys]` is the keys' blocks of matching positions laid end to end, in key order |
| Frames.SelectRepeatedLabel | pages/ISO_Failure_Code_Intelligence.py:37 | two columns labelled `a`, selected with keys `[a, a]`, give positions 0, 1, 0, 1 |
| Frames.FlattenBlock | pages/ISO_Failure_Code_Intelligence.py:37 | block j of a flattened sequence of blocks sits after every earlier block |
| Frames.SelectCount | pages/ISO_Failure_Code_Intelligence.py:37 | each column is selected as many times as its label occurs among the keys, so a label carried by several columns and requested twice yields each of those columns twice |
| Frames.SelectSorted | pages/ISO_Failure_Code_Intelligence.py:37 | selecting by sorted keys gives labels in ascending order, repeated labels included |
| Frames.SortColumnsRepeats | pages/ISO_Failure_Code_Intelligence.py:37 | sorting the columns picks each original column as many times as its label occurs in the frame: once for a distinct label, so a label shared by n columns yields n*n columns |
| Frames.SelectDistinct | pages/ISO_Failure_Code_Intelligence.py:37 | with distinct labels, `frame[keys]` picks one column per key, and that column carries the key |
| Frames.SortColumns | pages/ISO_Failure_Code_Intelligence.py:37 | column ordering fails exactly as `sorted` does; otherwise the labels come out in ascending order, each an original one, and the row labels and the axis name are kept |
| Frames.SortColumnsOrigin | pages/ISO_Failure_Code_Intelligence.py:37 | whatever the labels, each column of the sorted frame is a copy, label and data, of an original column |
| Frames.SortColumnsKeeps | pages/ISO_Failure_Code_Intelligence.py:37 | whatever the labels, each original column reappears, label and data, in the sorted frame |
| Frames.SortColumnsDistinct | pages/ISO_Failure_Code_Intelligence.py:37 | with distinct labels, the labels come out strictly ascending and are a rearrangement of the originals; each column keeps its data |
| Frames.ClearColumnsName | pages/ISO_Failure_Code_Intelligence.py:38 | the axis name is cleared and nothing else changes |
| Frames.CoerceAll | pages/ISO_Failure_Code_Intelligence.py:39 | every cell is coerced and the labels are kept; no cell is left missing or `X` |
| Normalize.Reshape | pages/ISO_Failure_Code_Intelligence.py:32-36 | it fails with `MissingColumns` iff a descriptive column is missing (naming the absent ones, or both when a raw label repeats), and with `EmptyTable` iff no other column is left; otherwise the rows are the kept raw columns but the last, in order, the labels are the last column's blanked values, and each cell is the blanked raw cell mirrored across the diagonal |
| Normalize.CleanDf | pages/ISO_Failure_Code_Intelligence.py:31-40 | it fails with `MissingColumns` iff `Examples` or `Type c` is missing (naming the absent ones, or both when a raw label repeats), with `EmptyTable` iff no other column is left, and otherwise iff there are at least two labels of mixed kinds; on success the rows are the kept raw columns but the last, in order, the labels are ascending values of the last column, the axis name is cleared, and no cell is missing or `X` |
| Normalize.CleanDfTransposes | pages/ISO_Failure_Code_Intelligence.py:31-40 | with distinct labels: the labels are the last column's values, strictly ascending; the cell in row c under label v is the coerced, blanked raw cell of column c in the raw row labelled v |
| Normalize.CoerceSheet | pages/ISO_Failure_Code_Intelligence.py:282 | the sheet `main` shows has every cell coerced and its labels and shape kept |
| Extraction.RepairHeader | pages/ISO_Failure_Code_Intelligence.py:56-62 | with an empty header name and an empty first-row cell, row 1 becomes the labels; the data is rows 2 to n-2 if a last-row cell is empty too, else rows 2 to n-1; `iloc[1]` fails below two rows; any other table is kept |
| Extraction.PageFrame | pages/ISO_Failure_Code_Intelligence.py:47-50 | a page past the end fails, and a page without a table fails; otherwise the result is the repaired first table |
| Extraction.ExtractPages | pages/ISO_Failure_Code_Intelligence.py:45-64 | it succeeds iff every listed page does, giving their tables in list order; otherwise it gives the error of the first failing page |
| Extraction.StackRowsAt | pages/ISO_Failure_Code_Intelligence.py:66 | row j of page i is row Offset(i)+j of the stack |
| Extraction.UnionLabels | pages/ISO_Failure_Code_Intelligence.py:66 | the outer-join labels are distinct, hold exactly the labels of all pages, and come in the order in which each first appears when the pages' headers are read page after page; with a repeat-free first header, that header comes first |
| Extraction.AddNewOrder | pages/ISO_Failure_Code_Intelligence.py:66 | adding one page's header appends its new labels in the order they first appear in it |
| Extraction.AddAllOrder | pages/ISO_Failure_Code_Intelligence.py:66 | adding the headers page by page lists every label in the order of its first appearance across the pages |
| Extraction.Realign | pages/ISO_Failure_Code_Intelligence.py:66 | a page reindexed to the joint labels keeps its own cell under each label it has, and is missing under the others |
| Extraction.StackSame | pages/ISO_Failure_Code_Intelligence.py:66 | pages with one header are stacked in order under that header, each row unchanged |
| Extraction.OuterJoin | pages/ISO_Failure_Code_Intelligence.py:66 | the outer join of pages with differing headers has the union of their labels, in order of first appearance, and one full-width row per page row |
| Extraction.OuterJoinAt | pages/ISO_Failure_Code_Intelligence.py:66 | in the outer join, row j of page i holds that page's own cell under each of its labels, and missing elsewhere |
| Extraction.Concat | pages/ISO_Failure_Code_Intelligence.py:66 | `pd.concat` fails on an empty list, and when headers differ and some page repeats a label; otherwise it stacks identical headers or outer-joins the rest, keeping every row |
| Extraction.PdfToDf | pages/ISO_Failure_Code_Intelligence.py:42-69 | an empty page list fails; if any page fails, the result is the error of the first failing page |
| Extraction.PdfToDfStacksPages | pages/ISO_Failure_Code_Intelligence.py:64-67 | for pages sharing one header, the result is `clean_df` of their tables stacked in list order |
| Extraction.PdfToDfSinglePage | pages/ISO_Failure_Code_Intelligence.py:66-67 | one listed page gives `clean_df` of its repaired table |
| Prompts.Lower | pages/ISO_Failure_Code_Intelligence.py:108 | the length is kept, no capital letter remains, and each capital becomes its small letter while everything else is kept |
| Prompts.Contains | pages/ISO_Failure_Code_Intelligence.py:110 | `key in text` holds iff the key occurs at some position of the text |
| Prompts.FindGreeting | pages/ISO_Failure_Code_Intelligence.py:109-111 | it finds a key iff some key occurs; the key found occurs and no earlier key does |
| Prompts.GreetingReply | pages/ISO_Failure_Code_Intelligence.py:98-111 | there is no reply iff no key occurs in the lower-cased input; otherwise the reply belongs to the first key that occurs |
| Prompts.JoinContains | pages/ISO_Failure_Code_Intelligence.py:148 | every item of `', '.join` occurs verbatim in the joined text |
| Prompts.JoinLength | pages/ISO_Failure_Code_Intelligence.py:148 | `sep.join(xs)` ends right after the last item, which starts after every earlier item and one separator each |
| Prompts.JoinItemAt | pages/ISO_Failure_Code_Intelligence.py:148 | item i of `sep.join(xs)` sits after items 0 to i-1, each followed by one separator |
| Prompts.JoinSepAt | pages/ISO_Failure_Code_Intelligence.py:148 | a separator follows every item of `sep.join(xs)` but the last |
| Prompts.GlossaryOf | views/ISO_Failure_Code_Intelligence.py:117 | the glossary contains every `CODE : desc` entry, starts with the first and ends with the last |
| Prompts.GlossaryEntryAt | views/ISO_Failure_Code_Intelligence.py:117 | entry i of the glossary sits after entries 0 to i-1, each followed by `, `, so the entries appear in table order |
| Prompts.GlossarySepAt | views/ISO_Failure_Code_Intelligence.py:117 | every glossary entry but the last is followed by `, ` |
| Prompts.GlossaryLength | views/ISO_Failure_Code_Intelligence.py:117 | the glossary ends right after its last entry, so it holds nothing but the entries and their separators |
| Prompts.GlossaryLists | views/ISO_Failure_Code_Intelligence.py:60-82 | there are 21 codes, and the glossary runs from the `FTS` entry to the `UNK` entry |
| Prompts.Prompt | views/ISO_Failure_Code_Intelligence.py:84-120 | the instruction text opens with the template head, has the table text verbatim right after the common lead, and ends with `Question: ` plus the input |
| Prompts.FailureHead | pages/ISO_Failure_Code_Intelligence.py:122-149 | the failure-code head opens with its instructions and contains the glossary |
| Prompts.Respond | pages/ISO_Failure_Code_Intelligence.py:107-151 | the first greeting key occurring in the lower-cased input determines the reply; with no key, the output is the template head, the table text verbatim, and `Question: ` plus the input at the end |
| Prompts.MaintenanceTemplate | pages/ISO_Failure_Code_Intelligence.py:153-184 | `maintenance_template` uses the same first-key routing; with no key, the output is the maintenance instructions, the table text verbatim, and `Question: ` plus the input at the end |
| Prompts.HiWins | pages/ISO_Failure_Code_Intelligence.py:109-111 | whenever `hi` occurs in the lower-cased input, the reply is the `hi` reply |
| Prompts.HiAnywhere | pages/ISO_Failure_Code_Intelligence.py:108-111 | any input containing `hi` or `HI`, whatever text surrounds it, gets the `hi` reply |
| Prompts.SubstringGreeting | pages/ISO_Failure_Code_Intelligence.py:108-111 | "Which pumps failed?" and "HISTORY" get the `hi` reply, because `hi` occurs inside a word |
| Prompts.HelloAfterHi | pages/ISO_Failure_Code_Intelligence.py:98-111 | "Hello" gets the `hello` reply, since `hi` does not occur in it |
| Prompts.ThanksAfterEarlierKeys | pages/ISO_Failure_Code_Intelligence.py:98-111 | "Thanks!" gets the thank-you reply via the `thanks` key |
| Prompts.CopiesDisagreeOnGreeting | views/ISO_Failure_Code_Intelligence.py:84-120 | for "hi" the `pages/` template is the canned reply, while the second copy's template is a prompt holding "hi", which is not that reply |
| Prompts.AgentCall | pages/ISO_Failure_Code_Intelligence.py:195-201 | the agent is called for every message: its input is the message unchanged, and its prefix is the first matching key's canned reply, or the full prompt when no key occurs |
| Prompts.GreetingStillReachesAgent | pages/ISO_Failure_Code_Intelligence.py:195-201 | "Which pumps failed?" still reaches the agent unchanged, with the hello reply as the prefix in place of the instructions |

## Left out

- The Streamlit UI, `main`, the session-state chat histories and page navigation: UI wiring with no stateable logic.
- The LangChain/OpenAI calls inside `response_generator` (the model, the agent itself and its answer): network-bound foreign calls. The request handed to the agent is modelled by `Prompts.AgentCall`. Its `history` is left out: each call creates a fresh, empty `ConversationBufferMemory`.
- PyMuPDF's `fitz.open`, `set_rotation`, `find_tables` and `to_pandas`. A document is given as the tables detected on each page. Each table comes with the three emptiness flags the code computes from it.
- `pd.read_excel` and the rendering `str(df)`: file I/O and pandas formatting. The rendered table is an opaque string.
- Negative page numbers (`doc[-1]`): page numbers are naturals, and anything past the last page fails.
- Floating-point cells: numbers are integers. NaN and None are one `Missing` value.
- `replace('', None)`: modelled as its pandas 2 meaning, blank to missing. pandas 1.x forward-fills instead, which is not modelled.
- Prompts.Lower: lowers ASCII capitals only. Python's `str.lower` also lowers other Unicode letters.
- Cells.Le: between a number and a string, or involving a missing cell, the order is an arbitrary fixed one. `SortLabels` fails on every list of two or more labels that needs such a comparison, so the order is never used on them. Python agrees for text next to numbers and for `None` next to anything; NaN is the exception, under `Frames.SortLabels`.
- Frames.SortLabels: a `Missing` label stands for both `None` and NaN. Python's `sorted` raises on `None` next to any other label, as modelled, but NaN compares with numbers and with NaN without raising. So `sorted([1, nan])` and `sorted([nan, nan])` succeed where `SortLabels` fails, and their result is not in ascending order. NaN labels arise from empty label cells in the sheet and from the outer-join fill of `pd.concat`. `Normalize.CleanDf` inherits this: for such label columns it reports `UnorderableLabels` where pandas goes on.
- Normalize.CleanDf: its general contract gives the failure cases, the row order, the ascending label order, the label source and the coercion. Strict label order, the labels as a rearrangement of the label column, and the cell under each label are proved only when the labels are distinct, in `CleanDfTransposes`. With repeated labels pandas selects every matching column once per key; the model reproduces that in `Frames.Select`, with the order within each key's block fixed by `Frames.SelectBlock`; `Frames.SelectCount` gives how often each column is selected (as often as its label occurs among the keys, and the sorted keys hold every label as often as the frame does), and `Frames.SortColumnsOrigin` and `Frames.SortColumnsKeeps` say which data each column carries. `Frames.SortColumnsRepeats` combines them: each original column is picked as many times as its label occurs in the frame. The total column count of `Normalize.CleanDf`, the sum of those counts, is not stated as one number.
- Extraction.PdfToDf: its success value is characterised through `PdfToDfStacksPages` and `PdfToDfSinglePage`, for pages that share one header. The outer-join case is characterised cell by cell in `OuterJoinAt`.
- Extraction.OuterJoin: its own contract gives the shape. The cell contents are in `OuterJoinAt`.
- `clean_df` with no data rows: the code fails only when no column is left after the drop (`iloc[-1]` on an empty transposed frame). A sheet with columns but no rows gives an empty matrix. The model follows the code here, not the weaker expectation that an empty sheet fails.
- The exact template text is held in the constants `FailurePreamble`, `FailurePreambleTwoColumn` and `MaintenanceHeader`. They hold the program's template text, character for character. They are proved about only through the generic `Prompt`/`Respond` contracts, because proofs over the full literals are expensive.

=== FILE: cells.dfy ===
/** Cell values of the failure-mode tables, the coercion applied to every
    cell, and the ordering Python's `sorted` uses on column labels. */
module Cells {

  /** A table cell as pandas holds it: the missing sentinel (`NaN`/`None`),
      a number, or text. */
  datatype Cell = Missing | Num(n: int) | Str(s: string)

  /** The marker that denotes "this failure mode applies". */
  const Marker: Cell := Str("X")

  /** `transform_value`: missing becomes 0, the exact marker `X` becomes 1,
      and every other value is passed through. */
  function Coerce(c: Cell): (r: Cell)
    ensures c.Missing? ==> r == Num(0)
    ensures c == Marker ==> r == Num(1)
    ensures r != c <==> c.Missing? || c == Marker
    ensures !r.Missing? && r != Marker
  {
    match c
    case Missing => Num(0)
    case Str(s) => if s == "X" then Num(1) else c
    case Num(_) => c
  }

  /** Coercion never produces a value it would change again. */
  lemma CoerceIdempotent(c: Cell)
    ensures Coerce(Coerce(c)) == Coerce(c)
  {
  }

  /** The case-sensitive part of the contract: lower-case `x`, the empty
      string and numbers all pass through unchanged. */
  lemma CoercePassesThrough()
    ensures Coerce(Str("x")) == Str("x")
    ensures Coerce(Str("")) == Str("")
    ensures forall n: int :: Coerce(Num(n)) == Num(n)
  {
  }

  /** The blank-to-missing replacement applied before transposition. */
  function Blank(c: Cell): (r: Cell)
    ensures r != Str("")
    ensures r != c <==> c == Str("")
    ensures r.Missing? <==> c.Missing? || c == Str("")
  {
    if c == Str("") then Missing else c
  }

  /** After blanking, coercion sends empty text to 0 as well as missing
      values, and the marker to 1; nothing else changes. */
  lemma CoerceBlank(c: Cell)
    ensures Coerce(Blank(c)) == Num(0) <==> c.Missing? || c == Str("") || c == Num(0)
    ensures Coerce(Blank(c)) == Num(1) <==> c == Marker || c == Num(1)
    ensures !c.Missing? && c != Str("") && c != Marker ==> Coerce(Blank(c)) == c
  {
  }

  // ---------------------------------------------------------------------
  // Ordering

  /** Python's string order: lexicographic by code point, a proper prefix
      sorting first. */
  predicate StrLe(a: string, b: string)
    decreases |a|
  {
    |a| == 0 || (|b| > 0 && (a[0] < b[0] || (a[0] == b[0] && StrLe(a[1..], b[1..]))))
  }

  lemma {:induction false} StrLeReflexive(a: string)
    ensures StrLe(a, a)
    decreases |a|
  {
    if |a| > 0 {
      StrLeReflexive(a[1..]);
    }
  }

  lemma {:induction false} StrLeTotal(a: string, b: string)
    ensures StrLe(a, b) || StrLe(b, a)
    decreases |a|
  {
    if |a| > 0 && |b| > 0 && a[0] == b[0] {
      StrLeTotal(a[1..], b[1..]);
    }
  }

  lemma {:induction false} StrLeAntisymmetric(a: string, b: string)
    requires StrLe(a, b) && StrLe(b, a)
    ensures a == b
    decreases |a|
  {
    if |a| > 0 {
      StrLeAntisymmetric(a[1..], b[1..]);
      assert a == [a[0]] + a[1..];
      assert b == [b[0]] + b[1..];
    }
  }

  lemma {:induction false} StrLeTransitive(a: string, b: string, c: string)
    requires StrLe(a, b) && StrLe(b, c)
    ensures StrLe(a, c)
    decreases |a|
  {
    if |a| > 0 && a[0] == b[0] && b[0] == c[0] {
      StrLeTransitive(a[1..], b[1..], c[1..]);
    }
  }

  /** Kinds that Python can compare among themselves. */
  function Rank(c: Cell): nat
  {
    match c
    case Missing => 0
    case Num(_) => 1
    case Str(_) => 2
  }

  /** A total order on cells. Between two numbers or two strings it is the
      order Python's `sorted` uses; across kinds it is an arbitrary fixed
      order, used only for lists Python would refuse to sort. */
  predicate Le(a: Cell, b: Cell)
  {
    if Rank(a) != Rank(b) then Rank(a) < Rank(b)
    else match (a, b)
      case (Num(x), Num(y)) => x <= y
      case (Str(x), Str(y)) => StrLe(x, y)
      case _ => true
  }

  lemma LeReflexive(a: Cell)
    ensures Le(a, a)
  {
    if a.Str? {
      StrLeReflexive(a.s);
    }
  }

  lemma LeTotal(a: Cell, b: Cell)
    ensures Le(a, b) || Le(b, a)
  {
    if a.Str? && b.Str? {
      StrLeTotal(a.s, b.s);
    }
  }

  lemma LeAntisymmetric(a: Cell, b: Cell)
    requires Le(a, b) && Le(b, a)
    ensures a == b
  {
    if a.Str? && b.Str? {
      StrLeAntisymmetric(a.s, b.s);
    }
  }

  lemma LeTransitive(a: Cell, b: Cell, c: Cell)
    requires Le(a, b) && Le(b, c)
    ensures Le(a, c)
  {
    if a.Str? && b.Str? && c.Str? {
      StrLeTransitive(a.s, b.s, c.s);
    }
  }

  /** All labels are strings, or all are numbers: the lists Python can sort
      without a `TypeError`. */
  predicate Uniform(ls: seq<Cell>)
  {
    (forall i | 0 <= i < |ls| :: ls[i].Str?) || (forall i | 0 <= i < |ls| :: ls[i].Num?)
  }
}

=== FILE: extraction.dfy ===
/** `pdf_to_df`: one detected table per listed page, the repair of the
    corrupted header pattern, the page-ordered `pd.concat`, and the final
    `clean_df`. PyMuPDF's table detection is outside the model: a document
    is given as the tables detected on each page, each with the three
    emptiness flags the Python code computes from it. */
module Extraction {
  import opened Wrappers
  import opened Cells
  import opened Sorting
  import opened Frames
  import opened Normalize

  /** A table as `find_tables` reports it: the frame `to_pandas` builds, and
      whether some header name, some cell of the first row and some cell of
      the last row is empty. */
  datatype Detected = Detected(frame: Frame, emptyHeader: bool, emptyFirstRow: bool, emptyLastRow: bool)

  /** The tables detected on each page of a document. */
  type Document = seq<seq<Detected>>

  predicate WellFormed(doc: Document)
  {
    forall p, t | 0 <= p < |doc| && 0 <= t < |doc[p]| :: Rectangular(doc[p][t].frame)
  }

  /** The header repair: with an empty header name and an empty first-row
      cell, row 1 becomes the header and rows 0 and 1 leave the data, and
      with an empty last-row cell as well the last row leaves too; any
      other table is kept as detected. */
  function RepairHeader(t: Detected): (r: Result<Frame, Error>)
    requires Rectangular(t.frame)
    ensures !(t.emptyHeader && t.emptyFirstRow) ==> r == Success(t.frame)
    ensures t.emptyHeader && t.emptyFirstRow ==> (r.Failure? <==> |t.frame.rows| < 2)
    ensures r.Failure? ==> r.error == RowOutOfRange
    ensures r.Success? ==> Rectangular(r.value)
    ensures r.Success? && t.emptyHeader && t.emptyFirstRow ==>
      var n := |t.frame.rows|;
      && r.value.columns == t.frame.rows[1]
      && |r.value.rows| == (if t.emptyLastRow && n > 2 then n - 3 else n - 2)
      && forall i | 0 <= i < |r.value.rows| :: r.value.rows[i] == t.frame.rows[i + 2]
  {
    var f := t.frame;
    if t.emptyHeader && t.emptyFirstRow && t.emptyLastRow then
      if |f.rows| < 2 then Failure(RowOutOfRange)
      else Success(Frame(f.rows[1], f.rows[2..if |f.rows| > 2 then |f.rows| - 1 else 2]))
    else if t.emptyHeader && t.emptyFirstRow then
      if |f.rows| < 2 then Failure(RowOutOfRange)
      else Success(Frame(f.rows[1], f.rows[2..]))
    else
      Success(f)
  }

  /** The repaired table of one listed page: fails past the last page or on
      a page where no table was detected (`tabs[0]`). */
  function PageFrame(doc: Document, page: nat): (r: Result<Frame, Error>)
    requires WellFormed(doc)
    ensures page >= |doc| ==> r == Failure(PageOutOfRange(page))
    ensures page < |doc| && |doc[page]| == 0 ==> r == Failure(NoTableFound(page))
    ensures page < |doc| && |doc[page]| > 0 ==> r == RepairHeader(doc[page][0])
    ensures r.Success? ==> Rectangular(r.value)
  {
    if page >= |doc| then Failure(PageOutOfRange(page))
    else if |doc[page]| == 0 then Failure(NoTableFound(page))
    else RepairHeader(doc[page][0])
  }

  /** The loop over the listed pages: the repaired tables in page-list
      order, or the error of the first page that fails. */
  function ExtractPages(doc: Document, pages: seq<nat>): (r: Result<seq<Frame>, Error>)
    requires WellFormed(doc)
    ensures r.Success? <==> forall i | 0 <= i < |pages| :: PageFrame(doc, pages[i]).Success?
    ensures r.Success? ==> |r.value| == |pages|
    ensures r.Success? ==> forall i | 0 <= i < |pages| :: r.value[i] == PageFrame(doc, pages[i]).value
    ensures r.Failure? ==> exists i | 0 <= i < |pages| ::
      && (forall h | 0 <= h < i :: PageFrame(doc, pages[h]).Success?)
      && PageFrame(doc, pages[i]) == Failure(r.error)
  {
    if |pages| == 0 then Success([])
    else
      var first :- PageFrame(doc, pages[0]);
      var rest :- ExtractPages(doc, pages[1..]);
      Success([first] + rest)
  }

  // ---------------------------------------------------------------------
  // pd.concat(frames, ignore_index=True)

  /** Number of rows contributed by the frames before frame `i`. */
  function Offset(frames: seq<Frame>, i: nat): nat
    requires i <= |frames|
  {
    if i == 0 then 0 else Offset(frames, i - 1) + |frames[i - 1].rows|
  }

  lemma {:induction false} OffsetPrefix(frames: seq<Frame>, n: nat, i: nat)
    requires i <= n <= |frames|
    ensures Offset(frames[..n], i) == Offset(frames, i)
    decreases i
  {
    if i > 0 {
      OffsetPrefix(frames, n, i - 1);
    }
  }

  /** The rows of all frames, one frame after the other. */
  function StackRows(frames: seq<Frame>): (rows: seq<seq<Cell>>)
    ensures |rows| == Offset(frames, |frames|)
  {
    if |frames| == 0 then []
    else
      var n := |frames| - 1;
      OffsetPrefix(frames, n, n);
      StackRows(frames[..n]) + frames[n].rows
  }

  /** Row `j` of frame `i` sits at `Offset(frames, i) + j` of the stack. */
  lemma {:induction false} StackRowsAt(frames: seq<Frame>, i: nat, j: nat)
    requires i < |frames| && j < |frames[i].rows|
    ensures Offset(frames, i) + j < |StackRows(frames)|
    ensures StackRows(frames)[Offset(frames, i) + j] == frames[i].rows[j]
    decreases |frames|
  {
    var n := |frames| - 1;
    OffsetPrefix(frames, n, n);
    if i < n {
      assert frames[..n][i] == frames[i];
      StackRowsAt(frames[..n], i, j);
      OffsetPrefix(frames, n, i);
    }
  }

  lemma StackRowsAll(frames: seq<Frame>)
    ensures forall i: nat, j: nat | i < |frames| && j < |frames[i].rows| ::
      Offset(frames, i) + j < |StackRows(frames)| && StackRows(frames)[Offset(frames, i) + j] == frames[i].rows[j]
  {
    forall i: nat, j: nat | i < |frames| && j < |frames[i].rows|
      ensures Offset(frames, i) + j < |StackRows(frames)| && StackRows(frames)[Offset(frames, i) + j] == frames[i].rows[j]
    {
      StackRowsAt(frames, i, j);
    }
  }

  /** Every frame carries the first frame's labels, in the same order. */
  predicate SameColumns(frames: seq<Frame>)
  {
    forall i | 0 <= i < |frames| :: frames[i].columns == frames[0].columns
  }

  /** The labels of `cols` not yet in `acc`, appended in order of first
      appearance. */
  function AddNew(acc: seq<Cell>, cols: seq<Cell>): (r: seq<Cell>)
    ensures forall x :: x in r <==> x in acc || x in cols
    ensures Distinct(acc) ==> Distinct(r)
    ensures |r| >= |acc| && r[..|acc|] == acc
    decreases |cols|
  {
    if |cols| == 0 then acc
    else if cols[0] in acc then AddNew(acc, cols[1..])
    else
      var r := AddNew(acc + [cols[0]], cols[1..]);
      assert (acc + [cols[0]])[..|acc|] == acc;
      assert r[..|acc|] == r[..|acc| + 1][..|acc|];
      r
  }

  /** Labels that are new and distinct are all appended, in order. */
  lemma {:induction false} AddNewFresh(acc: seq<Cell>, cols: seq<Cell>)
    requires Distinct(cols) && forall x | x in cols :: x !in acc
    ensures AddNew(acc, cols) == acc + cols
    decreases |cols|
  {
    if |cols| > 0 {
      assert cols[0] in cols;
      assert Distinct(cols[1..]);
      forall x | x in cols[1..] ensures x !in acc + [cols[0]] {
        var h :| 0 <= h < |cols[1..]| && cols[1..][h] == x;
        assert cols[h + 1] == x;
      }
      AddNewFresh(acc + [cols[0]], cols[1..]);
      SplitHead(acc, cols);
    }
  }

  /** Adds, frame by frame, the labels not seen so far. */
  function AddAll(acc: seq<Cell>, frames: seq<Frame>): (u: seq<Cell>)
    ensures Distinct(acc) ==> Distinct(u)
    ensures |u| >= |acc| && u[..|acc|] == acc
    decreases |frames|
  {
    if |frames| == 0 then acc
    else
      var next := AddNew(acc, frames[0].columns);
      var u := AddAll(next, frames[1..]);
      assert u[..|acc|] == u[..|next|][..|acc|];
      u
  }

  lemma {:induction false} AddAllMembers(acc: seq<Cell>, frames: seq<Frame>, x: Cell)
    ensures x in AddAll(acc, frames) <==> x in acc || exists i | 0 <= i < |frames| :: x in frames[i].columns
    decreases |frames|
  {
    if |frames| > 0 {
      var rest := frames[1..];
      AddAllMembers(AddNew(acc, frames[0].columns), rest, x);
      if exists i | 0 <= i < |rest| :: x in rest[i].columns {
        var i :| 0 <= i < |rest| && x in rest[i].columns;
        assert x in frames[i + 1].columns;
      }
      if exists i | 0 <= i < |frames| :: x in frames[i].columns {
        var i :| 0 <= i < |frames| && x in frames[i].columns;
        if i > 0 {
          assert rest[i - 1] == frames[i];
        }
      }
    }
  }

  /** All the frames' labels, frame after frame, repetitions kept. */
  function Flat(frames: seq<Frame>): (s: seq<Cell>)
    ensures forall x :: x in s <==> exists i | 0 <= i < |frames| :: x in frames[i].columns
  {
    if |frames| == 0 then []
    else
      var rest := frames[1..];
      assert forall i | 0 <= i < |rest| :: rest[i] == frames[i + 1];
      frames[0].columns + Flat(rest)
  }

  /** `u` lists labels of `s` in the order in which they first appear in
      `s`. */
  predicate FirstSeenOrder(u: seq<Cell>, s: seq<Cell>)
  {
    && (forall k | 0 <= k < |u| :: u[k] in s)
    && forall a, b | 0 <= a < b < |u| :: IndexOf(s, u[a]) < IndexOf(s, u[b])
  }

  /** Labels without repetitions appear first in their own order. */
  lemma DistinctSeenOrder(p: seq<Cell>, q: seq<Cell>)
    requires Distinct(p)
    ensures FirstSeenOrder(p, p + q)
  {
    forall a | 0 <= a < |p|
      ensures IndexOf(p + q, p[a]) == a
    {
      IndexOfConcat(p, q, p[a]);
      IndexOfDistinct(p, a);
    }
  }

  /** In `p + q`, a label is first found in `p` if it is there at all. */
  lemma {:induction false} IndexOfConcat(p: seq<Cell>, q: seq<Cell>, x: Cell)
    requires x in p + q
    ensures IndexOf(p + q, x) == if x in p then IndexOf(p, x) else |p| + IndexOf(q, x)
    decreases |p|
  {
    if |p| == 0 {
      assert p + q == q;
    } else if p[0] != x {
      assert (p + q)[1..] == p[1..] + q;
      IndexOfConcat(p[1..], q, x);
    }
  }

  /** Among distinct labels, the label at `i` is first found at `i`. */
  lemma IndexOfDistinct(s: seq<Cell>, i: nat)
    requires Distinct(s) && i < |s|
    ensures IndexOf(s, s[i]) == i
  {
  }

  /** Replacing `p` by a sequence `q` with the same labels in which `p`'s
      labels first appear in `p`'s order keeps the first-appearance order
      of anything listed against `p + rest`. */
  lemma Transfer(p: seq<Cell>, q: seq<Cell>, rest: seq<Cell>, u: seq<Cell>)
    requires Distinct(p) && FirstSeenOrder(p, q)
    requires forall x :: x in p <==> x in q
    requires FirstSeenOrder(u, p + rest)
    ensures FirstSeenOrder(u, q + rest)
  {
    forall a, b | 0 <= a < b < |u|
      ensures IndexOf(q + rest, u[a]) < IndexOf(q + rest, u[b])
    {
      var x, y := u[a], u[b];
      IndexOfConcat(p, rest, x);
      IndexOfConcat(p, rest, y);
      IndexOfConcat(q, rest, x);
      IndexOfConcat(q, rest, y);
      if x in p && y in p {
        var i, j := IndexOf(p, x), IndexOf(p, y);
        assert i < j;
      }
    }
  }

  lemma AppendAssociative<T>(a: seq<T>, b: seq<T>, c: seq<T>)
    ensures a + (b + c) == a + b + c
  {
  }

  lemma SplitHead(acc: seq<Cell>, cols: seq<Cell>)
    requires |cols| > 0
    ensures acc + [cols[0]] + cols[1..] == acc + cols
  {
    assert [cols[0]] + cols[1..] == cols;
    AppendAssociative(acc, [cols[0]], cols[1..]);
  }

  /** `AddNew` appends the new labels in the order they first appear. */
  lemma {:induction false} AddNewOrder(acc: seq<Cell>, cols: seq<Cell>)
    requires Distinct(acc)
    ensures FirstSeenOrder(AddNew(acc, cols), acc + cols)
    decreases |cols|
  {
    if |cols| == 0 {
      DistinctSeenOrder(acc, cols);
    } else if cols[0] in acc {
      var r := AddNew(acc, cols[1..]);
      AddNewOrder(acc, cols[1..]);
      DistinctSeenOrder(acc, [cols[0]]);
      Transfer(acc, acc + [cols[0]], cols[1..], r);
      SplitHead(acc, cols);
    } else {
      AddNewOrder(acc + [cols[0]], cols[1..]);
      SplitHead(acc, cols);
    }
  }

  /** `AddAll` lists the labels in the order they first appear, frame
      after frame. */
  lemma {:induction false} AddAllOrder(acc: seq<Cell>, frames: seq<Frame>)
    requires Distinct(acc)
    ensures FirstSeenOrder(AddAll(acc, frames), acc + Flat(frames))
    decreases |frames|
  {
    if |frames| == 0 {
      DistinctSeenOrder(acc, []);
    } else {
      var cols := frames[0].columns;
      var next := AddNew(acc, cols);
      var rest := Flat(frames[1..]);
      var u := AddAll(next, frames[1..]);
      assert Flat(frames) == cols + rest;
      AppendAssociative(acc, cols, rest);
      assert AddAll(acc, frames) == u;
      AddAllOrder(next, frames[1..]);
      AddNewOrder(acc, cols);
      assert forall x :: x in next <==> x in acc + cols;
      Transfer(next, acc + cols, rest, u);
    }
  }

  /** The union of the frames' labels in order of first appearance, as the
      outer join of `pd.concat` builds it: no label twice, every label of
      every frame, each listed where it first appears when the frames'
      labels are read frame after frame. */
  function UnionLabels(frames: seq<Frame>): (u: seq<Cell>)
    ensures Distinct(u)
    ensures forall x :: x in u <==> exists i | 0 <= i < |frames| :: x in frames[i].columns
    ensures FirstSeenOrder(u, Flat(frames))
    ensures |frames| > 0 && Distinct(frames[0].columns) ==>
      |u| >= |frames[0].columns| && u[..|frames[0].columns|] == frames[0].columns
  {
    forall x
      ensures x in AddAll([], frames) <==> exists i | 0 <= i < |frames| :: x in frames[i].columns
    {
      AddAllMembers([], frames, x);
    }
    AddAllOrder([], frames);
    assert [] + Flat(frames) == Flat(frames);
    if |frames| > 0 && Distinct(frames[0].columns) then
      AddNewFresh([], frames[0].columns);
      assert AddAll([], frames) == AddAll(AddNew([], frames[0].columns), frames[1..]);
      AddAll([], frames)
    else
      AddAll([], frames)
  }

  /** First position of a label. */
  function IndexOf(labels: seq<Cell>, x: Cell): (i: nat)
    requires x in labels
    ensures i < |labels| && labels[i] == x
    ensures forall h | 0 <= h < i :: labels[h] != x
  {
    if labels[0] == x then 0 else 1 + IndexOf(labels[1..], x)
  }

  /** A frame reindexed to the given labels: its own cell where it has the
      label, missing where it does not. */
  function Realign(f: Frame, labels: seq<Cell>): (r: Frame)
    requires Rectangular(f)
    ensures Rectangular(r) && r.columns == labels && |r.rows| == |f.rows|
    ensures forall j, k | 0 <= j < |f.rows| && 0 <= k < |labels| ::
      r.rows[j][k] == if labels[k] in f.columns then f.rows[j][IndexOf(f.columns, labels[k])] else Missing
  {
    Frame(labels, seq(|f.rows|, j requires 0 <= j < |f.rows| =>
      seq(|labels|, k requires 0 <= k < |labels| =>
        if labels[k] in f.columns then f.rows[j][IndexOf(f.columns, labels[k])] else Missing)))
  }

  lemma {:induction false} RealignOffset(frames: seq<Frame>, aligned: seq<Frame>, i: nat)
    requires |aligned| == |frames| && i <= |frames|
    requires forall t | 0 <= t < |frames| :: |aligned[t].rows| == |frames[t].rows|
    ensures Offset(aligned, i) == Offset(frames, i)
    decreases i
  {
    if i > 0 {
      RealignOffset(frames, aligned, i - 1);
    }
  }

  /** Frames with identical labels, one under the other. */
  function StackSame(frames: seq<Frame>): (r: Frame)
    requires |frames| > 0 && SameColumns(frames)
    requires forall i | 0 <= i < |frames| :: Rectangular(frames[i])
    ensures Rectangular(r) && r.columns == frames[0].columns
    ensures |r.rows| == Offset(frames, |frames|)
    ensures forall i, j | 0 <= i < |frames| && 0 <= j < |frames[i].rows| ::
      Offset(frames, i) + j < |r.rows| && r.rows[Offset(frames, i) + j] == frames[i].rows[j]
  {
    var rows := StackRows(frames);
    StackRowsAll(frames);
    assert forall j | 0 <= j < |rows| :: |rows[j]| == |frames[0].columns| by {
      forall j | 0 <= j < |rows| ensures |rows[j]| == |frames[0].columns| {
        StackRowsWidth(frames, frames[0].columns, j);
      }
    }
    Frame(frames[0].columns, rows)
  }

  /** Frames reindexed to the union of their labels, one under the other. */
  function OuterJoin(frames: seq<Frame>): (r: Frame)
    requires forall i | 0 <= i < |frames| :: Rectangular(frames[i])
    ensures Rectangular(r) && r.columns == UnionLabels(frames)
    ensures |r.rows| == Offset(frames, |frames|)
  {
    var u := UnionLabels(frames);
    var aligned := Aligned(frames, u);
    RealignOffset(frames, aligned, |frames|);
    var rows := StackRows(aligned);
    assert forall j | 0 <= j < |rows| :: |rows[j]| == |u| by {
      forall j | 0 <= j < |rows| ensures |rows[j]| == |u| {
        StackRowsWidth(aligned, u, j);
      }
    }
    Frame(u, rows)
  }

  function Aligned(frames: seq<Frame>, u: seq<Cell>): (aligned: seq<Frame>)
    requires forall i | 0 <= i < |frames| :: Rectangular(frames[i])
    ensures |aligned| == |frames|
    ensures forall i | 0 <= i < |frames| :: aligned[i] == Realign(frames[i], u)
  {
    seq(|frames|, i requires 0 <= i < |frames| => Realign(frames[i], u))
  }

  /** In the outer join, row `j` of frame `i` holds, under each label, the
      frame's own cell for that label, or missing where the frame lacks it. */
  lemma OuterJoinAt(frames: seq<Frame>, i: nat, j: nat, k: nat)
    requires forall t | 0 <= t < |frames| :: Rectangular(frames[t])
    requires i < |frames| && j < |frames[i].rows| && k < |UnionLabels(frames)|
    ensures Offset(frames, i) + j < |OuterJoin(frames).rows|
    ensures
      var x := UnionLabels(frames)[k];
      OuterJoin(frames).rows[Offset(frames, i) + j][k] ==
        if x in frames[i].columns then frames[i].rows[j][IndexOf(frames[i].columns, x)] else Missing
  {
    var u := UnionLabels(frames);
    var aligned := Aligned(frames, u);
    RealignOffset(frames, aligned, i);
    StackRowsAt(aligned, i, j);
  }

  /** `pd.concat(frames, ignore_index=True)`: fails on an empty list; stacks
      frames with identical labels; otherwise reindexes every frame to the
      union of the labels, which pandas refuses when a frame repeats a
      label. */
  function Concat(frames: seq<Frame>): (r: Result<Frame, Error>)
    requires forall i | 0 <= i < |frames| :: Rectangular(frames[i])
    ensures |frames| == 0 <==> r == Failure(NothingToConcatenate)
    ensures r.Failure? && |frames| > 0 <==>
      !SameColumns(frames) && exists i | 0 <= i < |frames| :: !Distinct(frames[i].columns)
    ensures r.Failure? && |frames| > 0 ==> r.error == NonUniqueColumns
    ensures r.Success? ==> Rectangular(r.value) && |r.value.rows| == Offset(frames, |frames|)
    ensures r.Success? && SameColumns(frames) ==> r.value == StackSame(frames)
    ensures r.Success? && !SameColumns(frames) ==> r.value == OuterJoin(frames)
  {
    if |frames| == 0 then Failure(NothingToConcatenate)
    else if SameColumns(frames) then Success(StackSame(frames))
    else if exists i | 0 <= i < |frames| :: !Distinct(frames[i].columns) then Failure(NonUniqueColumns)
    else Success(OuterJoin(frames))
  }

  /** Stacked rows of frames that all have `width` labels have that width. */
  lemma StackRowsWidth(frames: seq<Frame>, labels: seq<Cell>, j: nat)
    requires forall i | 0 <= i < |frames| :: Rectangular(frames[i]) && frames[i].columns == labels
    requires j < |StackRows(frames)|
    ensures |StackRows(frames)[j]| == |labels|
  {
    var i := FrameOfRow(frames, j, |frames|);
    StackRowsAt(frames, i, j - Offset(frames, i));
  }

  /** The frame, among the first `n`, that stacked row `j` comes from. */
  function FrameOfRow(frames: seq<Frame>, j: nat, n: nat): (i: nat)
    requires n <= |frames| && j < Offset(frames, n)
    ensures i < n && Offset(frames, i) <= j < Offset(frames, i) + |frames[i].rows|
  {
    if j >= Offset(frames, n - 1) then n - 1 else FrameOfRow(frames, j, n - 1)
  }

  /** `pdf_to_df`: the listed pages' repaired tables, concatenated in list
      order, then normalised by `clean_df`. */
  function PdfToDf(doc: Document, pages: seq<nat>): (r: Result<Matrix, Error>)
    requires WellFormed(doc)
    ensures |pages| == 0 ==> r == Failure(NothingToConcatenate)
    ensures (exists i | 0 <= i < |pages| :: PageFrame(doc, pages[i]).Failure?) ==>
      && r.Failure?
      && exists i | 0 <= i < |pages| ::
        && (forall h | 0 <= h < i :: PageFrame(doc, pages[h]).Success?)
        && PageFrame(doc, pages[i]) == Failure(r.error)
  {
    var frames :- ExtractPages(doc, pages);
    var raw :- Concat(frames);
    CleanDf(raw)
  }

  /** With pages whose tables share one header, `pdf_to_df` is `clean_df`
      of the tables' rows stacked in page-list order. */
  lemma PdfToDfStacksPages(doc: Document, pages: seq<nat>)
    requires WellFormed(doc) && |pages| > 0
    requires forall i | 0 <= i < |pages| :: PageFrame(doc, pages[i]).Success?
    requires forall i | 0 <= i < |pages| :: PageFrame(doc, pages[i]).value.columns == PageFrame(doc, pages[0]).value.columns
    ensures ExtractPages(doc, pages).Success?
    ensures
      var frames := ExtractPages(doc, pages).value;
      && SameColumns(frames)
      && PdfToDf(doc, pages) == CleanDf(StackSame(frames))
  {
  }

  /** A single listed page is `clean_df` of its repaired table. */
  lemma PdfToDfSinglePage(doc: Document, page: nat)
    requires WellFormed(doc) && PageFrame(doc, page).Success?
    ensures PdfToDf(doc, [page]) == CleanDf(PageFrame(doc, page).value)
  {
    var f := PageFrame(doc, page).value;
    assert ExtractPages(doc, [page]).value == [f];
    assert [f][..0] == [];
    assert StackRows([f]) == f.rows;
    assert Concat([f]) == Success(f);
  }
}

=== FILE: frames.dfy ===
/** Labelled tables and the pandas steps `clean_df` chains together: column
    drop, blank replacement, transposition, promotion of the last row to
    column labels, selection of the columns in sorted label order, and
    cell-wise coercion. */
module Frames {
  import opened Wrappers
  import opened Cells
  import opened Sorting

  /** The exceptions the table pipeline can raise, one per failing pandas,
      PyMuPDF or `sorted` call. */
  datatype Error =
    | MissingColumns(labels: seq<Cell>)  // `drop`: the requested labels not in the frame
    | EmptyTable                         // `iloc[-1]` on a transposed frame with no rows
    | UnorderableLabels                  // `sorted`: labels of kinds Python cannot compare
    | RowOutOfRange                      // `iloc[1]` on a frame with fewer than two rows
    | PageOutOfRange(page: nat)          // `doc[page_num]` past the last page
    | NoTableFound(page: nat)            // `tabs[0]` on a page without tables
    | NothingToConcatenate               // `pd.concat` of an empty list
    | NonUniqueColumns                   // `pd.concat` realigning a frame with repeated labels

  /** A data frame with column labels and a default (positional) row index:
      the raw table read from a sheet or extracted from PDF pages. */
  datatype Frame = Frame(columns: seq<Cell>, rows: seq<seq<Cell>>)

  /** Every row has one cell per column, as in every pandas frame. */
  predicate Rectangular(f: Frame)
  {
    forall i | 0 <= i < |f.rows| :: |f.rows[i]| == |f.columns|
  }

  /** A data frame with labelled rows (`index`), labelled columns and the
      name of the column axis. */
  datatype Matrix = Matrix(index: seq<Cell>, columns: seq<Cell>, columnsName: Option<Cell>, rows: seq<seq<Cell>>)

  predicate Shaped(m: Matrix)
  {
    && |m.rows| == |m.index|
    && forall i | 0 <= i < |m.rows| :: |m.rows[i]| == |m.columns|
  }

  predicate Increasing(ps: seq<nat>)
  {
    forall i, j | 0 <= i < j < |ps| :: ps[i] < ps[j]
  }

  predicate InRange(ps: seq<nat>, n: nat)
  {
    forall k | 0 <= k < |ps| :: ps[k] < n
  }

  // ---------------------------------------------------------------------
  // Label lookup

  /** Positions, in ascending order, of the labels `keep` accepts. */
  function Where(labels: seq<Cell>, keep: Cell -> bool): (ps: seq<nat>)
    ensures InRange(ps, |labels|)
    ensures forall p: int :: p in ps <==> 0 <= p < |labels| && keep(labels[p])
    ensures Increasing(ps)
    ensures |ps| <= |labels|
  {
    if |labels| == 0 then []
    else
      var front := labels[..|labels| - 1];
      var ps := Where(front, keep);
      assert forall p | 0 <= p < |front| :: front[p] == labels[p];
      if keep(labels[|labels| - 1]) then ps + [|labels| - 1] else ps
  }

  /** The positions carrying label `key`: what `frame[key]` selects. */
  function PositionsOf(labels: seq<Cell>, key: Cell): (ps: seq<nat>)
    ensures InRange(ps, |labels|)
    ensures forall p: int :: p in ps <==> 0 <= p < |labels| && labels[p] == key
    ensures Increasing(ps)
  {
    Where(labels, c => c == key)
  }

  /** The positions whose label is not among `names`: what survives
      `drop(columns=names)`. */
  function Kept(labels: seq<Cell>, names: seq<Cell>): (ps: seq<nat>)
    ensures InRange(ps, |labels|)
    ensures forall p: int :: p in ps <==> 0 <= p < |labels| && labels[p] !in names
    ensures Increasing(ps)
    ensures |ps| <= |labels|
  {
    Where(labels, c => c !in names)
  }

  /** An increasing sequence holding exactly one position is that position. */
  lemma IncreasingSingleton(ps: seq<nat>, j: nat)
    requires Increasing(ps)
    requires forall p: int :: p in ps <==> p == j
    ensures ps == [j]
  {
    assert j in ps;
    assert ps[0] in ps && ps[|ps| - 1] in ps;
    assert ps[0] == ps[|ps| - 1];
  }

  /** Equal values in a sequence without repetitions sit at one position. */
  lemma DistinctAt(s: seq<Cell>, a: nat, b: nat)
    requires Distinct(s) && a < |s| && b < |s| && s[a] == s[b]
    ensures a == b
  {
  }

  /** Among distinct labels, a label is found at exactly one position. */
  lemma PositionsOfDistinct(labels: seq<Cell>, j: nat)
    requires Distinct(labels) && j < |labels|
    ensures PositionsOf(labels, labels[j]) == [j]
  {
    IncreasingSingleton(PositionsOf(labels, labels[j]), j);
  }

  /** The requested labels that a frame lacks, in request order. */
  function Absent(names: seq<Cell>, labels: seq<Cell>): (r: seq<Cell>)
    ensures forall x :: x in r <==> x in names && x !in labels
  {
    if |names| == 0 then []
    else (if names[0] in labels then [] else [names[0]]) + Absent(names[1..], labels)
  }

  /** The cells of `row` at positions `ps`, in that order. */
  function Pick(row: seq<Cell>, ps: seq<nat>): (r: seq<Cell>)
    requires InRange(ps, |row|)
    ensures |r| == |ps|
    ensures forall k | 0 <= k < |ps| :: r[k] == row[ps[k]]
  {
    seq(|ps|, k requires 0 <= k < |ps| => row[ps[k]])
  }

  // ---------------------------------------------------------------------
  // The steps of the normalisation

  /** `drop(columns=names)`: fails when a requested label is absent, naming
      the absent labels when the frame's labels are unique and the whole
      request when some label repeats; otherwise keeps every column whose
      label is not requested, in the original order. */
  function DropColumns(f: Frame, names: seq<Cell>): (r: Result<Frame, Error>)
    requires Rectangular(f)
    ensures r.Failure? <==> exists n | n in names :: n !in f.columns
    ensures r.Failure? ==>
      r.error == MissingColumns(if Distinct(f.columns) then Absent(names, f.columns) else names)
    ensures r.Success? ==>
      var ks := Kept(f.columns, names);
      && Rectangular(r.value)
      && |r.value.rows| == |f.rows|
      && |r.value.columns| == |ks|
      && (forall k | 0 <= k < |ks| :: r.value.columns[k] == f.columns[ks[k]])
      && (forall k | 0 <= k < |r.value.columns| :: r.value.columns[k] !in names)
      && (forall i, k | 0 <= i < |f.rows| && 0 <= k < |ks| :: r.value.rows[i][k] == f.rows[i][ks[k]])
  {
    var missing := Absent(names, f.columns);
    if |missing| > 0 then
      assert missing[0] in missing;
      Failure(MissingColumns(if Distinct(f.columns) then missing else names))
    else
      assert missing == [];
      var ks := Kept(f.columns, names);
      assert InRange(ks, |f.columns|) by {
        forall k | 0 <= k < |ks| ensures ks[k] < |f.columns| {
          assert ks[k] in ks;
        }
      }
      var cols := Pick(f.columns, ks);
      assert forall k | 0 <= k < |cols| :: cols[k] !in names by {
        forall k | 0 <= k < |cols| ensures cols[k] !in names {
          assert ks[k] in ks;
        }
      }
      Success(Frame(cols, seq(|f.rows|, i requires 0 <= i < |f.rows| => Pick(f.rows[i], ks))))
  }

  /** `replace('', None)`: every empty text cell becomes missing. */
  function BlankAll(f: Frame): (r: Frame)
    requires Rectangular(f)
    ensures Rectangular(r) && r.columns == f.columns && |r.rows| == |f.rows|
    ensures forall i, j | 0 <= i < |f.rows| && 0 <= j < |f.columns| :: r.rows[i][j] == Blank(f.rows[i][j])
  {
    Frame(f.columns, seq(|f.rows|, i requires 0 <= i < |f.rows| =>
      seq(|f.rows[i]|, j requires 0 <= j < |f.rows[i]| => Blank(f.rows[i][j]))))
  }

  /** `.T`: the frame's column labels become the row labels, its row
      positions the column labels, and cell (c, i) is the frame's (i, c). */
  function Transpose(f: Frame): (r: Matrix)
    requires Rectangular(f)
    ensures Shaped(r)
    ensures r.index == f.columns && |r.columns| == |f.rows| && r.columnsName == None
    ensures forall c, i | 0 <= c < |f.columns| && 0 <= i < |f.rows| :: r.rows[c][i] == f.rows[i][c]
  {
    Matrix(
      f.columns,
      seq(|f.rows|, i => Num(i)),
      None,
      seq(|f.columns|, c requires 0 <= c < |f.columns| =>
        seq(|f.rows|, i requires 0 <= i < |f.rows| => f.rows[i][c])))
  }

  /** `columns = iloc[-1]` then `iloc[:-1]`: the last row becomes the column
      labels (its row label names the column axis) and leaves the data. */
  function PromoteLastRow(m: Matrix): (r: Result<Matrix, Error>)
    requires Shaped(m)
    ensures r.Failure? <==> |m.rows| == 0
    ensures r.Failure? ==> r.error == EmptyTable
    ensures r.Success? ==>
      var last := |m.rows| - 1;
      && Shaped(r.value)
      && r.value.columns == m.rows[last]
      && r.value.columnsName == Some(m.index[last])
      && r.value.index == m.index[..last]
      && r.value.rows == m.rows[..last]
  {
    if |m.rows| == 0 then Failure(EmptyTable)
    else
      var last := |m.rows| - 1;
      Success(Matrix(m.index[..last], m.rows[last], Some(m.index[last]), m.rows[..last]))
  }

  /** `sorted(labels)`: fails when two labels cannot be compared, otherwise
      the labels in ascending order. */
  function SortLabels(ls: seq<Cell>): (r: Result<seq<Cell>, Error>)
    ensures r.Success? <==> |ls| < 2 || Uniform(ls)
    ensures r.Failure? ==> r.error == UnorderableLabels
    ensures r.Success? ==> Sorted(r.value) && multiset(r.value) == multiset(ls)
  {
    if |ls| >= 2 && !Uniform(ls) then Failure(UnorderableLabels)
    else Success(SortCells(ls))
  }

  /** Position `p` appears in `PositionsOf(labels, key)` once if it carries
      `key` and not at all otherwise. */
  lemma PositionsOfCount(labels: seq<Cell>, key: Cell, p: nat)
    requires p < |labels|
    ensures multiset(PositionsOf(labels, key))[p] == if labels[p] == key then 1 else 0
  {
    assert Distinct(PositionsOf(labels, key));
    DistinctMultiplicity(PositionsOf(labels, key), p);
  }

  /** `frame[keys]`: for each key in turn, every column carrying that label. */
  function Select(labels: seq<Cell>, keys: seq<Cell>): (ps: seq<nat>)
    ensures InRange(ps, |labels|)
    ensures forall p: int :: p in ps <==> 0 <= p < |labels| && labels[p] in keys
  {
    if |keys| == 0 then []
    else
      var head := PositionsOf(labels, keys[0]);
      var tail := Select(labels, keys[1..]);
      assert forall c :: c in keys <==> c == keys[0] || c in keys[1..];
      head + tail
  }

  /** The blocks laid end to end. */
  function Flatten<T>(bs: seq<seq<T>>): seq<T>
  {
    if |bs| == 0 then [] else bs[0] + Flatten(bs[1..])
  }

  /** Where block `j` starts in `Flatten(bs)`: after every earlier block. */
  function Offset<T>(bs: seq<seq<T>>, j: nat): nat
    requires j <= |bs|
  {
    if j == 0 then 0 else Offset(bs, j - 1) + |bs[j - 1]|
  }

  /** Block `j` sits in the flattened sequence at its offset. */
  lemma {:induction false} FlattenBlock<T>(bs: seq<seq<T>>, j: nat)
    requires j < |bs|
    ensures Offset(bs, j) + |bs[j]| <= |Flatten(bs)|
    ensures Flatten(bs)[Offset(bs, j)..Offset(bs, j) + |bs[j]|] == bs[j]
    decreases |bs|
  {
    var rest := bs[1..];
    assert Flatten(bs) == bs[0] + Flatten(rest);
    if j == 0 {
      PrefixOfAppend(bs[0], Flatten(rest));
    } else {
      FlattenBlock(rest, j - 1);
      OffsetShift(bs, j);
      assert rest[j - 1] == bs[j];
      SliceOfAppend(bs[0], Flatten(rest), Offset(rest, j - 1), |bs[j]|);
    }
  }

  /** The first `|a|` elements of `a + b` are `a`. */
  lemma PrefixOfAppend<T>(a: seq<T>, b: seq<T>)
    ensures (a + b)[..|a|] == a
  {
  }

  /** A slice of `b` is the same slice of `a + b`, shifted by `|a|`. */
  lemma SliceOfAppend<T>(a: seq<T>, b: seq<T>, s: nat, n: nat)
    requires s + n <= |b|
    ensures (a + b)[|a| + s..|a| + s + n] == b[s..s + n]
  {
  }

  /** Dropping the first block moves every later offset back by it. */
  lemma {:induction false} OffsetShift<T>(bs: seq<seq<T>>, j: nat)
    requires 1 <= j <= |bs|
    ensures Offset(bs, j) == |bs[0]| + Offset(bs[1..], j - 1)
    decreases j
  {
    if j > 1 {
      OffsetShift(bs, j - 1);
      assert bs[1..][j - 2] == bs[j - 1];
    }
  }

  /** The positions picked for each key, key by key. */
  function Blocks(labels: seq<Cell>, keys: seq<Cell>): (bs: seq<seq<nat>>)
    ensures |bs| == |keys|
  {
    seq(|keys|, k requires 0 <= k < |keys| => PositionsOf(labels, keys[k]))
  }

  /** `frame[keys]` lays the keys' blocks end to end, in key order. */
  lemma {:induction false} SelectFlattens(labels: seq<Cell>, keys: seq<Cell>)
    ensures Select(labels, keys) == Flatten(Blocks(labels, keys))
    decreases |keys|
  {
    if |keys| > 0 {
      SelectFlattens(labels, keys[1..]);
      assert Blocks(labels, keys)[1..] == Blocks(labels, keys[1..]);
    }
  }

  /** The selection holds, for each key in turn, every position carrying
      that key in ascending order: a label carried by positions 0 and 1 and
      requested twice is picked as 0, 1, 0, 1. */
  lemma {:induction false} SelectBlock(labels: seq<Cell>, keys: seq<Cell>, j: nat)
    requires j < |keys|
    ensures Offset(Blocks(labels, keys), j) + |PositionsOf(labels, keys[j])| <= |Select(labels, keys)|
    ensures Select(labels, keys)[Offset(Blocks(labels, keys), j)..Offset(Blocks(labels, keys), j) + |PositionsOf(labels, keys[j])|]
         == PositionsOf(labels, keys[j])
  {
    var bs := Blocks(labels, keys);
    SelectFlattens(labels, keys);
    assert bs[j] == PositionsOf(labels, keys[j]);
    BlockIn(Select(labels, keys), bs, j, PositionsOf(labels, keys[j]));
  }

  /** A label carried by two columns and requested twice picks both
      columns, in order, once per request. */
  lemma SelectRepeatedLabel(a: Cell)
    ensures Select([a, a], [a, a]) == [0, 1, 0, 1]
  {
    var ps := PositionsOf([a, a], a);
    assert 0 in ps && 1 in ps;
    assert ps == [0, 1];
    assert [a, a][1..] == [a];
    assert Select([a, a], [a]) == ps;
  }

  /** `FlattenBlock` for any sequence equal to the flattened blocks. */
  lemma {:induction false} BlockIn<T>(whole: seq<T>, bs: seq<seq<T>>, j: nat, block: seq<T>)
    requires whole == Flatten(bs) && j < |bs| && bs[j] == block
    ensures Offset(bs, j) + |block| <= |whole|
    ensures whole[Offset(bs, j)..Offset(bs, j) + |block|] == block
  {
    FlattenBlock(bs, j);
  }

  /** Column `p` is picked once for every occurrence of its label among the
      keys, so repeated keys pick their columns repeatedly. */
  lemma {:induction false} SelectCount(labels: seq<Cell>, keys: seq<Cell>, p: nat)
    requires p < |labels|
    ensures multiset(Select(labels, keys))[p] == multiset(keys)[labels[p]]
    decreases |keys|
  {
    if |keys| > 0 {
      SelectSplit(labels, keys, p);
      HeadCount(keys, labels[p]);
      SelectCount(labels, keys[1..], p);
      PositionsOfCount(labels, keys[0], p);
    }
  }

  /** The picks for all keys are those for the first key, then the rest. */
  lemma SelectSplit(labels: seq<Cell>, keys: seq<Cell>, p: nat)
    requires |keys| > 0
    ensures multiset(Select(labels, keys))[p] ==
      multiset(PositionsOf(labels, keys[0]))[p] + multiset(Select(labels, keys[1..]))[p]
  {
    assert Select(labels, keys) == PositionsOf(labels, keys[0]) + Select(labels, keys[1..]);
  }

  /** How often `x` occurs: once more than in the tail if it is the head. */
  lemma HeadCount<T>(s: seq<T>, x: T)
    requires |s| > 0
    ensures multiset(s)[x] == (if s[0] == x then 1 else 0) + multiset(s[1..])[x]
  {
    assert s == [s[0]] + s[1..];
  }

  /** When the first key is found at exactly one position and the remaining
      keys pick one column each, so do all the keys. */
  lemma SelectCons(labels: seq<Cell>, keys: seq<Cell>, j: nat)
    requires |keys| > 0 && j < |labels| && PositionsOf(labels, keys[0]) == [j] && labels[j] == keys[0]
    requires |Select(labels, keys[1..])| == |keys| - 1
    requires forall k | 0 <= k < |keys| - 1 :: labels[Select(labels, keys[1..])[k]] == keys[k + 1]
    ensures |Select(labels, keys)| == |keys|
    ensures forall k | 0 <= k < |keys| :: labels[Select(labels, keys)[k]] == keys[k]
  {
    var tail := Select(labels, keys[1..]);
    var ps := Select(labels, keys);
    assert ps == [j] + tail;
    forall k | 0 <= k < |keys|
      ensures labels[ps[k]] == keys[k]
    {
      if k > 0 {
        assert ps[k] == tail[k - 1];
      }
    }
  }

  /** With distinct labels, selecting keys that all occur picks exactly one
      column per key, the one carrying it. */
  lemma {:induction false} SelectDistinct(labels: seq<Cell>, keys: seq<Cell>)
    requires Distinct(labels)
    requires forall x | x in keys :: x in labels
    ensures |Select(labels, keys)| == |keys|
    ensures forall k | 0 <= k < |keys| :: labels[Select(labels, keys)[k]] == keys[k]
  {
    if |keys| > 0 {
      assert keys[0] in keys;
      var j :| 0 <= j < |labels| && labels[j] == keys[0];
      PositionsOfDistinct(labels, j);
      var rest := keys[1..];
      assert forall x | x in rest :: x in labels;
      SelectDistinct(labels, rest);
      SelectCons(labels, keys, j);
    }
  }

  /** With sorted keys, a column picked for the first key has a label no
      greater than any column picked for a later key. */
  lemma HeadBeforeTail(labels: seq<Cell>, keys: seq<Cell>, x: nat, y: nat)
    requires Sorted(keys) && |keys| > 0
    requires x in PositionsOf(labels, keys[0]) && y in Select(labels, keys[1..])
    ensures Le(labels[x], labels[y])
  {
    var t :| 0 <= t < |keys[1..]| && keys[1..][t] == labels[y];
    assert keys[t + 1] == keys[1..][t];
  }

  /** Selecting by sorted keys yields labels in ascending order. */
  lemma {:induction false} SelectSorted(labels: seq<Cell>, keys: seq<Cell>)
    requires Sorted(keys)
    ensures Sorted(Pick(labels, Select(labels, keys)))
  {
    if |keys| > 0 {
      var head := PositionsOf(labels, keys[0]);
      var rest := keys[1..];
      SelectSorted(labels, rest);
      var tail := Select(labels, rest);
      var ps := Select(labels, keys);
      assert ps == head + tail;
      var picked := Pick(labels, ps);
      var later := Pick(labels, tail);
      forall q, r | 0 <= q < r < |picked|
        ensures Le(picked[q], picked[r])
      {
        if r < |head| {
          assert head[q] in head && head[r] in head;
          LeReflexive(keys[0]);
        } else if q < |head| {
          assert head[q] in head;
          assert ps[r] == tail[r - |head|] && tail[r - |head|] in tail;
          HeadBeforeTail(labels, keys, head[q], tail[r - |head|]);
        } else {
          assert picked[q] == later[q - |head|] && picked[r] == later[r - |head|];
        }
      }
    }
  }

  /** `frame[sorted(frame.columns)]`: the columns rearranged by label. */
  function SortColumns(m: Matrix): (r: Result<Matrix, Error>)
    requires Shaped(m)
    ensures r.Success? <==> |m.columns| < 2 || Uniform(m.columns)
    ensures r.Failure? ==> r.error == UnorderableLabels
    ensures r.Success? ==>
      && Shaped(r.value)
      && r.value.index == m.index
      && r.value.columnsName == m.columnsName
      && Sorted(r.value.columns)
      && (forall k | 0 <= k < |r.value.columns| :: r.value.columns[k] in m.columns)
  {
    var keys :- SortLabels(m.columns);
    var ps := Select(m.columns, keys);
    SelectSorted(m.columns, keys);
    Success(Matrix(m.index, Pick(m.columns, ps), m.columnsName,
      seq(|m.rows|, i requires 0 <= i < |m.rows| => Pick(m.rows[i], ps))))
  }

  /** Column `k` of `r` carries the label and the data of column `j` of `m`. */
  predicate CopiesColumn(m: Matrix, r: Matrix, k: nat, j: nat)
  {
    && Shaped(m) && Shaped(r) && |r.rows| == |m.rows|
    && k < |r.columns| && j < |m.columns|
    && r.columns[k] == m.columns[j]
    && forall i | 0 <= i < |m.rows| :: r.rows[i][k] == m.rows[i][j]
  }

  /** The positions `frame[keys]` picks, made into a frame. */
  lemma SortColumnsPicks(m: Matrix)
    requires Shaped(m) && SortColumns(m).Success?
    ensures
      var ps := Select(m.columns, SortLabels(m.columns).value);
      var r := SortColumns(m).value;
      && InRange(ps, |m.columns|)
      && Shaped(r) && |r.rows| == |m.rows| && |r.columns| == |ps|
      && forall k | 0 <= k < |ps| :: CopiesColumn(m, r, k, ps[k])
  {
  }

  /** Whatever the labels, every column of the sorted frame is a copy of an
      original column with the same label. */
  lemma SortColumnsOrigin(m: Matrix, k: nat)
    requires Shaped(m) && SortColumns(m).Success? && k < |SortColumns(m).value.columns|
    ensures exists j: nat | j < |m.columns| :: CopiesColumn(m, SortColumns(m).value, k, j)
  {
    var ps := Select(m.columns, SortLabels(m.columns).value);
    SortColumnsPicks(m);
    assert CopiesColumn(m, SortColumns(m).value, k, ps[k]);
  }

  /** Whatever the labels, every original column reappears in the sorted
      frame, label and data. */
  lemma SortColumnsKeeps(m: Matrix, j: nat)
    requires Shaped(m) && SortColumns(m).Success? && j < |m.columns|
    ensures exists k: nat | k < |SortColumns(m).value.columns| :: CopiesColumn(m, SortColumns(m).value, k, j)
  {
    var keys := SortLabels(m.columns).value;
    var ps := Select(m.columns, keys);
    SortColumnsPicks(m);
    assert m.columns[j] in multiset(keys);
    assert j in ps;
    var k :| 0 <= k < |ps| && ps[k] == j;
    assert CopiesColumn(m, SortColumns(m).value, k, ps[k]);
  }

  /** Whatever the labels, original column `j` is picked into the sorted
      frame as many times as its label occurs in the frame: once when the
      labels are distinct, `n * n` copies in all for a label carried by `n`
      columns. */
  lemma SortColumnsRepeats(m: Matrix, j: nat)
    requires Shaped(m) && SortColumns(m).Success? && j < |m.columns|
    ensures multiset(Select(m.columns, SortLabels(m.columns).value))[j] == multiset(m.columns)[m.columns[j]]
  {
    SelectCount(m.columns, SortLabels(m.columns).value, j);
  }

  /** The sorted labels of distinct labels: a strictly ascending
      rearrangement, each of them found among the originals. */
  lemma SortedKeysDistinct(labels: seq<Cell>, keys: seq<Cell>)
    requires Distinct(labels) && Sorted(keys) && multiset(keys) == multiset(labels)
    ensures Distinct(keys) && StrictlySorted(keys)
    ensures forall x | x in keys :: x in labels
  {
    forall x | x in keys ensures x in labels {
      assert x in multiset(keys);
    }
    PermutationDistinct(labels, keys);
    SortedDistinctStrict(keys);
  }

  /** Picking, from distinct labels, the positions that carry `keys`: the
      picked column `k` is the column labelled `keys[k]`. */
  lemma PickDistinct(labels: seq<Cell>, keys: seq<Cell>, ps: seq<nat>, row: seq<Cell>, k: nat, j: nat)
    requires Distinct(labels) && InRange(ps, |labels|) && |row| == |labels|
    requires |ps| == |keys| && forall q | 0 <= q < |keys| :: labels[ps[q]] == keys[q]
    requires k < |keys| && j < |labels| && labels[j] == keys[k]
    ensures Pick(row, ps)[k] == row[j]
  {
    DistinctAt(labels, ps[k], j);
  }

  /** With distinct labels, sorting the columns is a rearrangement: the
      labels come out strictly ascending and each column keeps its data. */
  lemma SortColumnsDistinct(m: Matrix)
    requires Shaped(m) && Distinct(m.columns) && (|m.columns| < 2 || Uniform(m.columns))
    ensures SortColumns(m).Success?
    ensures
      var r := SortColumns(m).value;
      && StrictlySorted(r.columns)
      && multiset(r.columns) == multiset(m.columns)
      && forall i, k, j | 0 <= i < |r.rows| && 0 <= k < |r.columns| && 0 <= j < |m.columns| && m.columns[j] == r.columns[k]
           :: r.rows[i][k] == m.rows[i][j]
  {
    var keys := SortLabels(m.columns).value;
    SortedKeysDistinct(m.columns, keys);
    SelectDistinct(m.columns, keys);
    var ps := Select(m.columns, keys);
    var r := SortColumns(m).value;
    assert r.columns == keys;
    forall i, k, j | 0 <= i < |r.rows| && 0 <= k < |r.columns| && 0 <= j < |m.columns| && m.columns[j] == r.columns[k]
      ensures r.rows[i][k] == m.rows[i][j]
    {
      PickDistinct(m.columns, keys, ps, m.rows[i], k, j);
    }
  }

  /** `columns.name = None`. */
  function ClearColumnsName(m: Matrix): (r: Matrix)
    ensures r.columnsName == None
    ensures r.index == m.index && r.columns == m.columns && r.rows == m.rows
  {
    m.(columnsName := None)
  }

  /** `applymap(transform_value)`: every cell coerced, nothing else touched. */
  function CoerceAll(m: Matrix): (r: Matrix)
    requires Shaped(m)
    ensures Shaped(r)
    ensures r.index == m.index && r.columns == m.columns && r.columnsName == m.columnsName
    ensures forall i, k | 0 <= i < |m.rows| && 0 <= k < |m.columns| :: r.rows[i][k] == Coerce(m.rows[i][k])
    ensures forall i, k | 0 <= i < |r.rows| && 0 <= k < |r.columns| :: !r.rows[i][k].Missing? && r.rows[i][k] != Marker
  {
    Matrix(m.index, m.columns, m.columnsName,
      seq(|m.rows|, i requires 0 <= i < |m.rows| =>
        seq(|m.rows[i]|, k requires 0 <= k < |m.rows[i]| => Coerce(m.rows[i][k]))))
  }
}

=== FILE: normalize.dfy ===
/** `clean_df`: a failure-mode sheet turned into a decision matrix with one
    row per equipment column and one column per value of the sheet's last
    column, and the plain `transform_value` pass `main` applies instead. */
module Normalize {
  import opened Wrappers
  import opened Cells
  import opened Sorting
  import opened Frames

  /** The two descriptive columns that are dropped before transposing. */
  const Descriptive: seq<Cell> := [Str("Examples"), Str("Type c")]

  /** Positions of the raw columns that survive the drop, in order. */
  function DataColumns(raw: Frame): (ks: seq<nat>)
    ensures InRange(ks, |raw.columns|) && Increasing(ks)
  {
    Kept(raw.columns, Descriptive)
  }

  /** Both descriptive columns are present. */
  predicate HasDescriptive(raw: Frame)
  {
    Str("Examples") in raw.columns && Str("Type c") in raw.columns
  }

  /** The values of the last surviving raw column, blanks made missing: the
      labels the result's columns receive. */
  function LabelColumn(raw: Frame): (ls: seq<Cell>)
    requires Rectangular(raw) && |DataColumns(raw)| > 0
    ensures |ls| == |raw.rows|
  {
    var ks := DataColumns(raw);
    var last := ks[|ks| - 1];
    seq(|raw.rows|, i requires 0 <= i < |raw.rows| => Blank(raw.rows[i][last]))
  }

  /** The first half of `clean_df`, up to the promotion of the last row:
      the surviving raw columns but the last become the rows, in raw order,
      the last one's values the column labels, and each cell is the
      (blanked) raw cell mirrored across the diagonal. */
  function Reshape(raw: Frame): (r: Result<Matrix, Error>)
    requires Rectangular(raw)
    ensures !HasDescriptive(raw) <==> r.Failure? && r.error.MissingColumns?
    ensures !HasDescriptive(raw) ==>
      r.error.labels == if Distinct(raw.columns) then Absent(Descriptive, raw.columns) else Descriptive
    ensures HasDescriptive(raw) ==> (r.Failure? <==> |DataColumns(raw)| == 0)
    ensures HasDescriptive(raw) && r.Failure? ==> r.error == EmptyTable
    ensures r.Success? ==>
      var ks := DataColumns(raw);
      && |ks| > 0
      && Shaped(r.value)
      && r.value.columns == LabelColumn(raw)
      && r.value.columnsName == Some(raw.columns[ks[|ks| - 1]])
      && |r.value.index| == |ks| - 1
      && (forall j | 0 <= j < |ks| - 1 :: r.value.index[j] == raw.columns[ks[j]])
      && (forall j, i | 0 <= j < |ks| - 1 && 0 <= i < |raw.rows| :: r.value.rows[j][i] == Blank(raw.rows[i][ks[j]]))
  {
    DropDescriptive(raw);
    var dropped :- DropColumns(raw, Descriptive);
    var transposed := Transpose(BlankAll(dropped));
    TransposedData(raw, dropped);
    PromoteLastRow(transposed)
  }

  /** After the drop and the blank replacement, the transposed frame has one
      row per surviving raw column, labelled by it, holding that column's
      blanked cells. */
  lemma TransposedData(raw: Frame, dropped: Frame)
    requires Rectangular(raw) && DropColumns(raw, Descriptive) == Success(dropped)
    ensures
      var t := Transpose(BlankAll(dropped));
      var ks := DataColumns(raw);
      && Shaped(t)
      && |t.rows| == |ks| && |t.columns| == |raw.rows|
      && (forall j | 0 <= j < |ks| :: t.index[j] == raw.columns[ks[j]])
      && (forall j, i | 0 <= j < |ks| && 0 <= i < |raw.rows| :: t.rows[j][i] == Blank(raw.rows[i][ks[j]]))
      && (|ks| > 0 ==> t.rows[|ks| - 1] == LabelColumn(raw))
  {
  }

  /** Dropping the descriptive columns fails exactly when one is missing. */
  lemma DropDescriptive(raw: Frame)
    requires Rectangular(raw)
    ensures DropColumns(raw, Descriptive).Failure? <==> !HasDescriptive(raw)
  {
    assert Str("Examples") in Descriptive && Str("Type c") in Descriptive;
  }

  /** `clean_df`. It fails when a descriptive column is missing, when no
      other column is left to promote, or when the promoted labels cannot be
      sorted; otherwise its rows are the surviving raw columns but the last,
      in raw order, its column labels come from that last column, the column
      axis is unnamed, and every cell is coerced. */
  function CleanDf(raw: Frame): (r: Result<Matrix, Error>)
    requires Rectangular(raw)
    ensures !HasDescriptive(raw) <==> r.Failure? && r.error.MissingColumns?
    ensures !HasDescriptive(raw) ==>
      r.error.labels == if Distinct(raw.columns) then Absent(Descriptive, raw.columns) else Descriptive
    ensures HasDescriptive(raw) && |DataColumns(raw)| == 0 ==> r == Failure(EmptyTable)
    ensures HasDescriptive(raw) && |DataColumns(raw)| > 0 ==>
      (r.Failure? <==> |raw.rows| >= 2 && !Uniform(LabelColumn(raw)))
    ensures r.Failure? && HasDescriptive(raw) && |DataColumns(raw)| > 0 ==> r.error == UnorderableLabels
    ensures r.Success? ==>
      var ks := DataColumns(raw);
      && |ks| > 0
      && Shaped(r.value)
      && r.value.columnsName == None
      && Sorted(r.value.columns)
      && |r.value.index| == |ks| - 1
      && (forall j | 0 <= j < |ks| - 1 :: r.value.index[j] == raw.columns[ks[j]])
      && (forall k | 0 <= k < |r.value.columns| :: r.value.columns[k] in LabelColumn(raw))
      && (forall j, k | 0 <= j < |r.value.rows| && 0 <= k < |r.value.columns| ::
            !r.value.rows[j][k].Missing? && r.value.rows[j][k] != Marker)
  {
    var promoted :- Reshape(raw);
    var sorted :- SortColumns(promoted);
    Success(CoerceAll(ClearColumnsName(sorted)))
  }

  /** A successful `clean_df` is the coerced, unnamed column sort of the
      reshaped sheet. */
  lemma CleanDfSteps(raw: Frame)
    requires Rectangular(raw)
    ensures CleanDf(raw).Success? ==>
      && Reshape(raw).Success? && SortColumns(Reshape(raw).value).Success?
      && CleanDf(raw).value == CoerceAll(ClearColumnsName(SortColumns(Reshape(raw).value).value))
  {
  }

  /** When the labels are distinct, the result is a pure transposition plus
      coercion: its column labels are the label column sorted strictly
      ascending, and the cell in row `j` (raw column `ks[j]`) under label `v`
      is the coerced raw cell of column `ks[j]` in the raw row whose label
      is `v`. */
  lemma CleanDfTransposes(raw: Frame)
    requires Rectangular(raw) && HasDescriptive(raw) && |DataColumns(raw)| > 0
    requires |raw.rows| < 2 || Uniform(LabelColumn(raw))
    requires Distinct(LabelColumn(raw))
    ensures CleanDf(raw).Success?
    ensures
      var r := CleanDf(raw).value;
      var ks := DataColumns(raw);
      var labels := LabelColumn(raw);
      && StrictlySorted(r.columns)
      && multiset(r.columns) == multiset(labels)
      && |r.rows| == |ks| - 1
      && forall j, k, i | 0 <= j < |ks| - 1 && 0 <= k < |r.columns| && 0 <= i < |raw.rows| && labels[i] == r.columns[k]
           :: r.rows[j][k] == Coerce(Blank(raw.rows[i][ks[j]]))
  {
    CleanDfSteps(raw);
    var promoted := Reshape(raw).value;
    var ks := DataColumns(raw);
    var labels := LabelColumn(raw);
    assert promoted.columns == labels && |promoted.rows| == |ks| - 1;
    SortColumnsDistinct(promoted);
    var sorted := SortColumns(promoted).value;
    assert Shaped(sorted) && |sorted.rows| == |ks| - 1;
    var r := CleanDf(raw).value;
    assert r.columns == sorted.columns && |r.rows| == |sorted.rows|;
    forall j, k, i | 0 <= j < |ks| - 1 && 0 <= k < |r.columns| && 0 <= i < |raw.rows| && labels[i] == r.columns[k]
      ensures r.rows[j][k] == Coerce(Blank(raw.rows[i][ks[j]]))
    {
      assert r.rows[j][k] == Coerce(sorted.rows[j][k]);
      assert sorted.rows[j][k] == promoted.rows[j][i];
    }
  }

  /** What `main` shows and hands to the agent: `transform_value` applied to
      the sheet as read, without the blank replacement of `clean_df`. */
  function CoerceSheet(sheet: Frame): (r: Frame)
    requires Rectangular(sheet)
    ensures Rectangular(r) && r.columns == sheet.columns && |r.rows| == |sheet.rows|
    ensures forall i, j | 0 <= i < |sheet.rows| && 0 <= j < |sheet.columns| :: r.rows[i][j] == Coerce(sheet.rows[i][j])
  {
    Frame(sheet.columns, seq(|sheet.rows|, i requires 0 <= i < |sheet.rows| =>
      seq(|sheet.rows[i]|, j requires 0 <= j < |sheet.rows[i]| => Coerce(sheet.rows[i][j]))))
  }

  /** In the sheet `main` shows, empty text stays empty text and missing
      cells become 0, whereas `clean_df` turns both into 0. */
  lemma CoerceSheetKeepsBlanks(sheet: Frame, i: nat, j: nat)
    requires Rectangular(sheet) && i < |sheet.rows| && j < |sheet.columns|
    ensures sheet.rows[i][j] == Str("") ==> CoerceSheet(sheet).rows[i][j] == Str("")
    ensures sheet.rows[i][j].Missing? ==> CoerceSheet(sheet).rows[i][j] == Num(0)
  {
  }
}

=== FILE: prompts.dfy ===
/** The prompt layer of the failure-code page: the greeting routing, the
    instruction text, and the request handed to the table-reasoning agent. The
    rendered table (`str(df)`) is an opaque string. */
module Prompts {
  import opened Wrappers

  // ---------------------------------------------------------------------
  // Text helpers

  /** `str.lower()` restricted to ASCII letters. */
  function LowerChar(c: char): char
  {
    if 'A' <= c <= 'Z' then (c as int + 32) as char else c
  }

  /** `s.lower()`: ASCII capitals become small letters, every other
      character is kept. */
  function Lower(s: string): (r: string)
    ensures |r| == |s|
    ensures forall i | 0 <= i < |r| :: !('A' <= r[i] <= 'Z')
    ensures forall i | 0 <= i < |s| ::
      if 'A' <= s[i] <= 'Z' then r[i] as int == s[i] as int + 32 else r[i] == s[i]
  {
    seq(|s|, i requires 0 <= i < |s| => LowerChar(s[i]))
  }

  /** `t` is `s` with every character lowered. */
  lemma LowerIs(s: string, t: string)
    requires |s| == |t| && forall i | 0 <= i < |s| :: t[i] == LowerChar(s[i])
    ensures Lower(s) == t
  {
  }

  /** `k` occurs in `s` starting at position `i`. */
  predicate OccursAt(s: string, k: string, i: int)
  {
    0 <= i && i + |k| <= |s| && s[i..i + |k|] == k
  }

  lemma OccursShift(s: string, k: string)
    requires |s| > 0
    ensures (exists i :: OccursAt(s, k, i)) <==> OccursAt(s, k, 0) || exists i :: OccursAt(s[1..], k, i)
  {
    if exists i :: OccursAt(s[1..], k, i) {
      var i :| OccursAt(s[1..], k, i);
      assert s[1..][i..i + |k|] == s[i + 1..i + 1 + |k|];
      assert OccursAt(s, k, i + 1);
    }
    if exists i :: OccursAt(s, k, i) {
      var i :| OccursAt(s, k, i);
      if i > 0 {
        assert s[1..][i - 1..i - 1 + |k|] == s[i..i + |k|];
        assert OccursAt(s[1..], k, i - 1);
      }
    }
  }

  /** Python's `k in s` on strings: a substring test. */
  function Contains(s: string, k: string): (b: bool)
    ensures b <==> exists i :: OccursAt(s, k, i)
    decreases |s|
  {
    if |k| > |s| then false
    else if s[..|k|] == k then
      assert OccursAt(s, k, 0);
      true
    else
      OccursShift(s, k);
      Contains(s[1..], k)
  }

  predicate StartsWith(s: string, p: string)
  {
    |p| <= |s| && s[..|p|] == p
  }

  predicate EndsWith(s: string, p: string)
  {
    |p| <= |s| && s[|s| - |p|..] == p
  }

  /** An occurrence in `b` is an occurrence in `a + b + c`, shifted by `|a|`. */
  lemma OccursInContext(a: string, b: string, c: string, k: string, i: int)
    requires OccursAt(b, k, i)
    ensures OccursAt(a + b + c, k, |a| + i)
  {
    assert (a + b + c)[|a| + i..|a| + i + |k|] == b[i..i + |k|];
  }

  /** An occurrence in `b` is an occurrence in `a + b`, shifted by `|a|`. */
  lemma OccursAfter(a: string, b: string, k: string, i: int)
    requires OccursAt(b, k, i)
    ensures OccursAt(a + b, k, |a| + i)
  {
    assert (a + b)[|a| + i..|a| + i + |k|] == b[i..i + |k|];
  }

  // ---------------------------------------------------------------------
  // Greeting routing

  /** A greeting key and the canned reply it triggers. */
  datatype Canned = Canned(key: string, reply: string)

  const HelloReply: string := "Hello! How can I assist you today?"
  const HiThereReply: string := "Hi there! What can I help you with?"
  const WelcomeReply: string := "You're very welcome! Let me know if you need anything else."
  const GoodbyeReply: string := "Goodbye! Have a great day!"

  /** The greeting table, in the order the keys are tried. */
  const Greetings: seq<Canned> := [
    Canned("hi", HelloReply),
    Canned("hello", HiThereReply),
    Canned("thankyou", WelcomeReply),
    Canned("thank you", WelcomeReply),
    Canned("thanks", WelcomeReply),
    Canned("bye", GoodbyeReply)
  ]

  /** Key `i` is the first key of `table` occurring in `text`. */
  predicate FirstMatch(text: string, table: seq<Canned>, i: int)
  {
    && 0 <= i < |table|
    && Contains(text, table[i].key)
    && forall h | 0 <= h < i :: !Contains(text, table[h].key)
  }

  /** The loop over the greeting table: the position of the first key that
      occurs in `text`, if any. */
  function FindGreeting(text: string, table: seq<Canned>): (r: Option<nat>)
    ensures r.Some? <==> exists i | 0 <= i < |table| :: Contains(text, table[i].key)
    ensures r.Some? ==> FirstMatch(text, table, r.value)
  {
    if |table| == 0 then None
    else if Contains(text, table[0].key) then Some(0)
    else
      match FindGreeting(text, table[1..])
      case None =>
        assert forall i | 0 <= i < |table| :: !Contains(text, table[i].key) by {
          forall i | 0 <= i < |table| ensures !Contains(text, table[i].key) {
            if i > 0 {
              assert table[i] == table[1..][i - 1];
            }
          }
        }
        None
      case Some(i) =>
        assert table[i + 1] == table[1..][i];
        assert forall h | 0 <= h < i + 1 :: !Contains(text, table[h].key) by {
          forall h | 0 <= h < i + 1 ensures !Contains(text, table[h].key) {
            if h > 0 {
              assert table[h] == table[1..][h - 1];
            }
          }
        }
        Some(i + 1)
  }

  /** At most one key is the first to match. */
  lemma FirstMatchUnique(text: string, table: seq<Canned>, i: int)
    requires FirstMatch(text, table, i)
    ensures forall j | FirstMatch(text, table, j) :: j == i
  {
  }

  /** The canned reply for a chat input, if one of the keys occurs in its
      lower-cased text. */
  function GreetingReply(input: string): (r: Option<string>)
    ensures r.None? <==> forall i | 0 <= i < |Greetings| :: !Contains(Lower(input), Greetings[i].key)
    ensures forall i | FirstMatch(Lower(input), Greetings, i) :: r == Some(Greetings[i].reply)
  {
    match FindGreeting(Lower(input), Greetings)
    case None => None
    case Some(i) =>
      FirstMatchUnique(Lower(input), Greetings, i);
      Some(Greetings[i].reply)
  }

  // ---------------------------------------------------------------------
  // The glossary line

  /** The failure-mode codes and descriptions, in dictionary order. */
  const FailureCodes: seq<(string, string)> := [
    ("FTS", "Failure to start on demand"),
    ("STP", "Failure to stop on demand"),
    ("UST", "Spurious stop"),
    ("BRD", "Breakdown"),
    ("HIO", "High output"),
    ("LOO", "Low output"),
    ("ERO", "Erratic output"),
    ("ELF", "External leakage fuel"),
    ("ELP", "External leakage process medium"),
    ("ELU", "External leakage utility medium"),
    ("INL", "Internal leakage"),
    ("VIB", "Vibration"),
    ("NOI", "Noise"),
    ("OHE", "Overheating"),
    ("PLU", "Plugged/choked"),
    ("PDE", "Parameter deviation"),
    ("AIR", "Abnormal instrument reading"),
    ("STD", "Structural deficiency"),
    ("SER", "Minor in-service problems"),
    ("OTH", "Other"),
    ("UNK", "Unknown")
  ]

  function Entry(code: (string, string)): string
  {
    code.0 + " : " + code.1
  }

  function Entries(codes: seq<(string, string)>): (r: seq<string>)
    ensures |r| == |codes| && forall i | 0 <= i < |codes| :: r[i] == Entry(codes[i])
  {
    seq(|codes|, i requires 0 <= i < |codes| => Entry(codes[i]))
  }

  /** `sep.join(xs)`. */
  function Join(sep: string, xs: seq<string>): string
  {
    if |xs| == 0 then ""
    else if |xs| == 1 then xs[0]
    else xs[0] + sep + Join(sep, xs[1..])
  }

  /** The joined text starts with the first item. */
  lemma {:induction false} JoinStartsWith(sep: string, xs: seq<string>)
    requires |xs| > 0
    ensures StartsWith(Join(sep, xs), xs[0])
  {
    if |xs| > 1 {
      assert (xs[0] + sep + Join(sep, xs[1..]))[..|xs[0]|] == xs[0];
    }
  }

  /** The joined text ends with the last item. */
  lemma {:induction false} JoinEndsWith(sep: string, xs: seq<string>)
    requires |xs| > 0
    ensures EndsWith(Join(sep, xs), xs[|xs| - 1])
    decreases |xs|
  {
    if |xs| > 1 {
      JoinEndsWith(sep, xs[1..]);
      var tail := Join(sep, xs[1..]);
      var last := xs[|xs| - 1];
      assert xs[1..][|xs[1..]| - 1] == last;
      var whole := xs[0] + sep + tail;
      assert whole[|whole| - |last|..] == tail[|tail| - |last|..];
    }
  }

  /** Every item occurs, verbatim, in the joined text. */
  lemma {:induction false} JoinContains(sep: string, xs: seq<string>, i: nat)
    requires i < |xs|
    ensures Contains(Join(sep, xs), xs[i])
    decreases |xs|
  {
    if i == 0 {
      JoinStartsWith(sep, xs);
      assert OccursAt(Join(sep, xs), xs[0], 0);
    } else {
      JoinContains(sep, xs[1..], i - 1);
      var p :| OccursAt(Join(sep, xs[1..]), xs[i], p);
      OccursAfter(xs[0] + sep, Join(sep, xs[1..]), xs[i], p);
      assert xs[0] + sep + Join(sep, xs[1..]) == Join(sep, xs);
    }
  }

  /** Where item `i` starts in `sep.join(xs)`: after every earlier item,
      each followed by one separator. */
  function ItemStart(sep: string, xs: seq<string>, i: nat): nat
    requires i <= |xs|
  {
    if i == 0 then 0 else ItemStart(sep, xs, i - 1) + |xs[i - 1]| + |sep|
  }

  /** Dropping the first item moves every later start back by that item and
      one separator. */
  lemma {:induction false} ItemStartShift(sep: string, xs: seq<string>, i: nat)
    requires 1 <= i <= |xs|
    ensures ItemStart(sep, xs, i) == |xs[0]| + |sep| + ItemStart(sep, xs[1..], i - 1)
    decreases i
  {
    if i > 1 {
      ItemStartShift(sep, xs, i - 1);
      assert xs[1..][i - 2] == xs[i - 1];
    }
  }

  /** `sep.join(xs)` as the first item, a separator, and the join of the rest. */
  lemma JoinCons(sep: string, xs: seq<string>)
    requires |xs| > 1
    ensures Join(sep, xs) == (xs[0] + sep) + Join(sep, xs[1..])
  {
  }

  /** The joined text ends right after the last item. */
  lemma {:induction false} JoinLength(sep: string, xs: seq<string>)
    requires |xs| > 0
    ensures |Join(sep, xs)| == ItemStart(sep, xs, |xs| - 1) + |xs[|xs| - 1]|
    decreases |xs|
  {
    if |xs| > 1 {
      JoinLength(sep, xs[1..]);
      JoinCons(sep, xs);
      ItemStartShift(sep, xs, |xs| - 1);
      assert xs[1..][|xs| - 2] == xs[|xs| - 1];
    }
  }

  /** Item `i` sits at `ItemStart(sep, xs, i)`. */
  lemma {:induction false} JoinItemAt(sep: string, xs: seq<string>, i: nat)
    requires i < |xs|
    ensures OccursAt(Join(sep, xs), xs[i], ItemStart(sep, xs, i))
    decreases |xs|
  {
    if |xs| == 1 {
      assert OccursAt(xs[0], xs[0], 0);
    } else if i == 0 {
      JoinCons(sep, xs);
      OccursInContext("", xs[0], sep + Join(sep, xs[1..]), xs[0], 0);
      assert "" + xs[0] + (sep + Join(sep, xs[1..])) == Join(sep, xs);
    } else {
      JoinItemAt(sep, xs[1..], i - 1);
      JoinCons(sep, xs);
      ItemStartShift(sep, xs, i);
      assert xs[1..][i - 1] == xs[i];
      OccursAfter(xs[0] + sep, Join(sep, xs[1..]), xs[i], ItemStart(sep, xs[1..], i - 1));
    }
  }

  /** A separator follows every item but the last. */
  lemma {:induction false} JoinSepAt(sep: string, xs: seq<string>, i: nat)
    requires i < |xs| - 1
    ensures OccursAt(Join(sep, xs), sep, ItemStart(sep, xs, i) + |xs[i]|)
    decreases |xs|
  {
    JoinCons(sep, xs);
    if i == 0 {
      OccursInContext(xs[0], sep, Join(sep, xs[1..]), sep, 0);
      assert xs[0] + sep + Join(sep, xs[1..]) == Join(sep, xs);
    } else {
      JoinSepAt(sep, xs[1..], i - 1);
      ItemStartShift(sep, xs, i);
      assert xs[1..][i - 1] == xs[i];
      OccursAfter(xs[0] + sep, Join(sep, xs[1..]), sep, ItemStart(sep, xs[1..], i - 1) + |xs[1..][i - 1]|);
    }
  }

  lemma JoinContainsAll(sep: string, xs: seq<string>)
    ensures forall i | 0 <= i < |xs| :: Contains(Join(sep, xs), xs[i])
  {
    forall i | 0 <= i < |xs|
      ensures Contains(Join(sep, xs), xs[i])
    {
      JoinContains(sep, xs, i);
    }
  }

  /** What `', '.join` puts between glossary entries. */
  const Separator: string := ", "

  /** The glossary line of a code table: its entries joined by commas. */
  function GlossaryOf(codes: seq<(string, string)>): (g: string)
    ensures forall e | e in Entries(codes) :: Contains(g, e)
    ensures |codes| > 0 ==> StartsWith(g, Entry(codes[0]))
    ensures |codes| > 0 ==> EndsWith(g, Entry(codes[|codes| - 1]))
  {
    var es := Entries(codes);
    JoinContainsAll(Separator, es);
    if |codes| > 0 then
      JoinStartsWith(Separator, es);
      JoinEndsWith(Separator, es);
      Join(Separator, es)
    else
      Join(Separator, es)
  }

  /** The glossary line ends right after its last entry. */
  lemma GlossaryLength(codes: seq<(string, string)>)
    requires |codes| > 0
    ensures |GlossaryOf(codes)| == ItemStart(Separator, Entries(codes), |codes| - 1) + |Entry(codes[|codes| - 1])|
  {
    var es := Entries(codes);
    JoinLength(Separator, es);
    assert es[|codes| - 1] == Entry(codes[|codes| - 1]);
  }

  /** Entry `i` of the glossary line sits at `ItemStart(Separator,
      Entries(codes), i)`: the entries come in table order. */
  lemma GlossaryEntryAt(codes: seq<(string, string)>, i: nat)
    requires i < |codes|
    ensures OccursAt(GlossaryOf(codes), Entry(codes[i]), ItemStart(Separator, Entries(codes), i))
  {
    var es := Entries(codes);
    JoinItemAt(Separator, es, i);
    assert es[i] == Entry(codes[i]);
  }

  /** Every entry of the glossary line but the last is followed by the
      separator. */
  lemma GlossarySepAt(codes: seq<(string, string)>, i: nat)
    requires i < |codes| - 1
    ensures OccursAt(GlossaryOf(codes), Separator, ItemStart(Separator, Entries(codes), i) + |Entries(codes)[i]|)
  {
    JoinSepAt(Separator, Entries(codes), i);
    assert Join(Separator, Entries(codes)) == GlossaryOf(codes);
  }

  /** The "Available Failure Codes" line. */
  const Glossary: string := GlossaryOf(FailureCodes)

  /** The glossary lists all 21 codes, opening with the `FTS` entry and
      closing with the `UNK` entry. */
  lemma GlossaryLists()
    ensures |FailureCodes| == 21
    ensures FailureCodes[0] == ("FTS", "Failure to start on demand")
    ensures FailureCodes[20] == ("UNK", "Unknown")
    ensures StartsWith(Glossary, Entry(FailureCodes[0]))
    ensures EndsWith(Glossary, Entry(FailureCodes[20]))
  {
  }

  // ---------------------------------------------------------------------
  // Instruction templates

  /** The failure-code instructions up to the glossary, with the
      three-column example table. */
  const FailurePreamble: string :=
    "Given an input question, first create a syntactically correct query to run on the dataframe, then\n" +
    "    analyze the results of the query, and return the answer in a summarized tabular format.\n" +
    "   \n" +
    "    Make sure the query is compatible with the dataframe and returns relevant columns for the given question.\n" +
    "    The response should consistently be displayed as a well-formatted table, using both the failure code abbreviation and full description.\n" +
    "   \n" +
    "    **Response Format:**\n" +
    "   \n" +
    "    | Failure Code | Description                    | Example                   |\n" +
    "    |--------------|--------------------------------| --------------------------|\n" +
    "    | FTS          | Failure to start on demand     | Doesn't start on demand   |\n" +
    "    | STP          | Failure to stop on demand      | Doesn't stop on demand    |\n" +
    "    | ...          | ...                            | ...                       |\n" +
    "   \n" +
    "    Ensure all output is consistent in this tabular format throughout the entire response.\n" +
    " \n" +
    "    If no relevant data is found based on the query, respond with a table indicating \"No data available\".\n" +
    "   \n" +
    "    Example:\n" +
    " \n" +
    "    | Failure Code | Description      | Example           |\n" +
    "    |--------------|------------------|-------------------|          \n" +
    "    | No data      | No data available| No data available |\n" +
    "    |\n" +
    " \n" +
    "    Available Failure Codes:"

  /** The same instructions with the two-column example table. */
  const FailurePreambleTwoColumn: string :=
    "Given an input question, first create a syntactically correct query to run on the dataframe, then\n" +
    "    analyze the results of the query, and return the answer in a summarized tabular format.\n" +
    "   \n" +
    "    Make sure the query is compatible with the dataframe and returns relevant columns for the given question.\n" +
    "    The response should consistently be displayed as a well-formatted table, using both the failure code abbreviation and full description.\n" +
    "   \n" +
    "    **Response Format:**\n" +
    "   \n" +
    "    | Failure Code | Description                    |\n" +
    "    |--------------|--------------------------------|\n" +
    "    | FTS          | Failure to start on demand     |\n" +
    "    | STP          | Failure to stop on demand      |\n" +
    "    | ...          | ...                            |\n" +
    "   \n" +
    "    Ensure all output is consistent in this tabular format throughout the entire response.\n" +
    "\n" +
    "    If no relevant data is found based on the query, respond with a table indicating \"No data available\".\n" +
    "   \n" +
    "    Example:\n" +
    "\n" +
    "    | Failure Code | Description      |\n" +
    "    |--------------|------------------|\n" +
    "    | No data      | No data available|\n" +
    "\n" +
    "    Available Failure Codes:"

  /** The maintenance-code instructions. */
  const MaintenanceHeader: string :=
    "Given an input question, analyze the dataframe and provide an answer based on the relevant information found in it.\n" +
    "   \n" +
    "    Return the response in a tabular format or as a pandas dataframe with clear column names." +
    "\n    "

  const QuestionLabel: string := "Question: "

  /** The lead of every suffix, up to where the table text goes. */
  const SuffixLead: string := "Use only the following dataframe to process the query:\n    "

  /** The fixed text of one prompt: everything before the table text (after
      the common lead `SuffixLead`), and what stands between the table text
      and the question. */
  datatype Wording = Wording(head: string, middle: string)

  /** A prompt: the head, the lead, the table text, the middle text, then the
      question; the table text and the question appear verbatim. */
  function Prompt(w: Wording, table: string, input: string): (r: string)
    ensures StartsWith(r, w.head)
    ensures OccursAt(r, table, |w.head| + |SuffixLead|)
    ensures EndsWith(r, QuestionLabel + input)
  {
    var r := w.head + SuffixLead + table + w.middle + QuestionLabel + input;
    assert r == (w.head + SuffixLead) + table + (w.middle + QuestionLabel + input);
    assert r[|w.head + SuffixLead|..|w.head + SuffixLead| + |table|] == table;
    assert r == (w.head + SuffixLead + table + w.middle) + (QuestionLabel + input);
    r
  }

  /** The body shared by `template_formation` (failure-code page) and
      `maintenance_template`: the canned reply of the first greeting key
      that occurs in the lower-cased input, and the prompt only when no key
      occurs. Either way the result is an instruction prefix for the agent
      (see `AgentCall`), not an answer shown to the user. */
  function Respond(w: Wording, table: string, input: string): (r: string)
    ensures forall i | FirstMatch(Lower(input), Greetings, i) :: r == Greetings[i].reply
    ensures (forall i | 0 <= i < |Greetings| :: !Contains(Lower(input), Greetings[i].key)) ==>
      && StartsWith(r, w.head)
      && OccursAt(r, table, |w.head| + |SuffixLead|)
      && EndsWith(r, QuestionLabel + input)
  {
    match GreetingReply(input)
    case Some(reply) => reply
    case None => Prompt(w, table, input)
  }

  /** The failure-code template head: the instructions, then the glossary. */
  function FailureHead(preamble: string): (h: string)
    ensures StartsWith(h, preamble) && Contains(h, Glossary)
  {
    var h := preamble + "\n    " + Glossary + "\n    ";
    OccursInContext(preamble + "\n    ", Glossary, "\n    ", Glossary, 0);
    assert h[..|preamble|] == preamble;
    h
  }

  /** The wording of `template_formation` on the failure-code page. */
  const FailureWording: Wording := Wording(
    FailureHead(FailurePreamble),
    "\n   \n" +
    "    The dataframe contains the failure codes and their descriptions.\n" +
    "    In the dataframe, 1 represents a failure for a specific code, and 0 represents a non-failure code.\n" +
    "     \n    ")

  /** The wording of `template_formation` in the second copy of the page,
      which has no greeting routing. */
  const TwoColumnWording: Wording := Wording(
    FailureHead(FailurePreambleTwoColumn),
    "\n\n" +
    "    The dataframe contains the failure codes and their descriptions.\n" +
    "    In the dataframe, 1 represents a failure for a specific code, and 0 represents a non-failure code.\n" +
    "    \n    ")

  /** The wording of `maintenance_template`. */
  const MaintenanceWording: Wording := Wording(MaintenanceHeader, MaintenanceMiddle)

  /** What stands between the table text and the question in
      `maintenance_template`. */
  const MaintenanceMiddle: string :=
    "\n   \n" +
    "    The dataframe contains maintenance activity codes and their descriptions.\n" +
    "   \n" +
    "    Return the answer as a pandas dataframe with appropriate column names for easy readability.\n" +
    "     \n    "

  /** A key longer than the text does not occur in it. */
  lemma TooLong(s: string, k: string)
    requires |s| < |k|
    ensures !Contains(s, k)
  {
  }

  /** A key holding a character that `s` lacks does not occur in `s`. */
  lemma MissingChar(s: string, k: string, j: nat)
    requires j < |k| && k[j] !in s
    ensures !Contains(s, k)
  {
    forall i | 0 <= i && i + |k| <= |s|
      ensures !OccursAt(s, k, i)
    {
      assert s[i..i + |k|][j] == s[i + j];
    }
  }

  /** `maintenance_template`: the greeting routing of `template_formation`
      in front of the maintenance instructions. */
  function MaintenanceTemplate(table: string, input: string): (r: string)
    ensures forall i | FirstMatch(Lower(input), Greetings, i) :: r == Greetings[i].reply
    ensures (forall i | 0 <= i < |Greetings| :: !Contains(Lower(input), Greetings[i].key)) ==>
      && StartsWith(r, MaintenanceHeader)
      && OccursAt(r, table, |MaintenanceHeader| + |SuffixLead|)
      && EndsWith(r, QuestionLabel + input)
  {
    Respond(MaintenanceWording, table, input)
  }

  /** Whenever `hi` occurs anywhere in the lower-cased input, the hello
      reply is given, whatever else the input asks. */
  lemma HiWins(w: Wording, table: string, input: string)
    requires Contains(Lower(input), "hi")
    ensures Respond(w, table, input) == HelloReply
  {
    assert FirstMatch(Lower(input), Greetings, 0);
  }

  /** The letters `hi`, in either case, at any position of the input make
      it a greeting. */
  lemma HiInside(w: Wording, table: string, input: string, p: nat)
    requires p + 1 < |input|
    requires input[p] == 'h' || input[p] == 'H'
    requires input[p + 1] == 'i' || input[p + 1] == 'I'
    ensures Respond(w, table, input) == HelloReply
  {
    var l := Lower(input);
    assert l[p] == 'h' && l[p + 1] == 'i';
    assert l[p..p + 2] == "hi";
    assert OccursAt(l, "hi", p);
    HiWins(w, table, input);
  }

  /** Whatever surrounds it, the letters `hi` in either case make the input
      a greeting: the question text around them is never looked at. */
  lemma HiAnywhere(w: Wording, table: string, before: string, after: string)
    ensures Respond(w, table, before + "hi" + after) == HelloReply
    ensures Respond(w, table, before + "HI" + after) == HelloReply
  {
    HiInside(w, table, before + "hi" + after, |before|);
    HiInside(w, table, before + "HI" + after, |before|);
  }

  /** The keys are matched as substrings of the lower-cased input, so a
      question that merely contains `hi` (in "Which", or "HISTORY") gets the
      hello reply in place of the instructions. */
  lemma SubstringGreeting(w: Wording, table: string)
    ensures Respond(w, table, "Which pumps failed?") == HelloReply
    ensures Respond(w, table, "HISTORY") == HelloReply
  {
    HiInside(w, table, "Which pumps failed?", 1);
    HiInside(w, table, "HISTORY", 0);
  }

  /** Keys are tried in table order: `hello` is reached only when `hi` does
      not occur. */
  lemma HelloAfterHi(w: Wording, table: string)
    ensures Respond(w, table, "Hello") == HiThereReply
  {
    var l := "hello";
    LowerIs("Hello", l);
    MissingChar(l, Greetings[0].key, 1);
    assert OccursAt(l, Greetings[1].key, 0);
    assert FirstMatch(l, Greetings, 1);
  }

  /** `thanks` selects the thank-you reply once none of the earlier
      keys occurs. */
  lemma ThanksAfterEarlierKeys(w: Wording, table: string)
    ensures Respond(w, table, "Thanks!") == WelcomeReply
  {
    LowerIs("Thanks!", "thanks!");
    ThanksMatch();
  }

  /** In "thanks!" the `thanks` key is the first key that occurs. */
  lemma ThanksMatch()
    ensures FirstMatch("thanks!", Greetings, 4)
  {
    var l := "thanks!";
    NoEarlierKey();
    forall h | 0 <= h < 4
      ensures !Contains(l, Greetings[h].key)
    {
      assert h == 0 || h == 1 || h == 2 || h == 3;
    }
    assert OccursAt(l, Greetings[4].key, 0) by {
      assert Greetings[4].key == "thanks" == l[..6];
    }
  }

  /** None of the four keys before `thanks` occurs in "thanks!". */
  lemma NoEarlierKey()
    ensures !Contains("thanks!", Greetings[0].key) && !Contains("thanks!", Greetings[1].key)
    ensures !Contains("thanks!", Greetings[2].key) && !Contains("thanks!", Greetings[3].key)
  {
    var l := "thanks!";
    MissingChar(l, Greetings[0].key, 1);
    MissingChar(l, Greetings[1].key, 1);
    TooLong(l, Greetings[2].key);
    TooLong(l, Greetings[3].key);
  }

  /** The two copies of `template_formation` disagree on a bare greeting:
      the failure-code page returns the canned reply in place of the
      instructions, the second copy returns a prompt holding it, whatever
      the wordings. Both results become the agent's instruction prefix. */
  lemma CopiesDisagreeOnGreeting(w: Wording, w2: Wording, table: string)
    ensures Respond(w, table, "hi") == HelloReply
    ensures Prompt(w2, table, "hi") != HelloReply
  {
    assert OccursAt(Lower("hi"), "hi", 0);
    HiWins(w, table, "hi");
    var p := Prompt(w2, table, "hi");
    assert p[|p| - 1] == (QuestionLabel + "hi")[|QuestionLabel + "hi"| - 1] == 'i';
    assert HelloReply[|HelloReply| - 1] == '?';
  }

  // ---------------------------------------------------------------------
  // The agent request

  /** What `response_generator` hands the agent: an instruction prefix and
      the chat message as the agent's input. */
  datatype AgentRequest = AgentRequest(prefix: string, input: string)

  /** `response_generator` on the failure-code page, whose template uses
      `FailureWording`. The agent is called for every message: the message
      itself is always its input, and the prefix is what the template
      returned, a canned reply when a greeting key occurs and the full
      prompt otherwise. */
  function AgentCall(w: Wording, table: string, message: string): (q: AgentRequest)
    ensures q.input == message
    ensures forall i | FirstMatch(Lower(message), Greetings, i) :: q.prefix == Greetings[i].reply
    ensures (forall i | 0 <= i < |Greetings| :: !Contains(Lower(message), Greetings[i].key)) ==>
      q.prefix == Prompt(w, table, message)
  {
    AgentRequest(Respond(w, table, message), message)
  }

  /** A question that contains `hi` still reaches the agent unchanged; only
      the instructions are replaced by the hello reply. */
  lemma GreetingStillReachesAgent(w: Wording, table: string)
    ensures AgentCall(w, table, "Which pumps failed?") == AgentRequest(HelloReply, "Which pumps failed?")
  {
    SubstringGreeting(w, table);
  }
}

=== FILE: sorting.dfy ===
/** `sorted(...)` on a list of column labels: an insertion sort over the
    cell order, with the facts that make its result the unique sorted
    rearrangement of its input. */
module Sorting {
  import opened Cells

  predicate Sorted(s: seq<Cell>)
  {
    forall i, j | 0 <= i < j < |s| :: Le(s[i], s[j])
  }

  predicate StrictlySorted(s: seq<Cell>)
  {
    forall i, j | 0 <= i < j < |s| :: Le(s[i], s[j]) && s[i] != s[j]
  }

  predicate Distinct<T(==)>(s: seq<T>)
  {
    forall i, j | 0 <= i < j < |s| :: s[i] != s[j]
  }

  /** Every element of a sorted sequence is at least its head. */
  lemma HeadIsLeast(x: Cell, s: seq<Cell>)
    requires Sorted(s) && |s| > 0 && Le(x, s[0])
    ensures forall j | 0 <= j < |s| :: Le(x, s[j])
  {
    forall j | 0 <= j < |s|
      ensures Le(x, s[j])
    {
      if j > 0 {
        LeTransitive(x, s[0], s[j]);
      }
    }
  }

  /** Inserts `x` into a sorted sequence, before the first element it is
      not above. */
  function Insert(x: Cell, s: seq<Cell>): (r: seq<Cell>)
    requires Sorted(s)
    ensures Sorted(r)
    ensures multiset(r) == multiset(s) + multiset{x}
    ensures |r| == |s| + 1
  {
    if |s| == 0 then [x]
    else if Le(x, s[0]) then
      HeadIsLeast(x, s);
      [x] + s
    else
      LeTotal(x, s[0]);
      assert s == [s[0]] + s[1..];
      var tail := Insert(x, s[1..]);
      InsertHeadBound(x, s, tail);
      [s[0]] + tail
  }

  /** The head of `s` is below everything in the insertion into its tail. */
  lemma InsertHeadBound(x: Cell, s: seq<Cell>, tail: seq<Cell>)
    requires Sorted(s) && |s| > 0 && Le(s[0], x)
    requires multiset(tail) == multiset(s[1..]) + multiset{x}
    ensures forall j | 0 <= j < |tail| :: Le(s[0], tail[j])
  {
    forall j | 0 <= j < |tail|
      ensures Le(s[0], tail[j])
    {
      assert tail[j] in multiset(tail);
      if tail[j] != x {
        assert tail[j] in multiset(s[1..]);
        var k :| 0 <= k < |s[1..]| && s[1..][k] == tail[j];
        assert s[k + 1] == tail[j];
      }
    }
  }

  /** The sort that `sorted` performs on a list of labels. */
  function SortCells(s: seq<Cell>): (r: seq<Cell>)
    ensures Sorted(r)
    ensures multiset(r) == multiset(s)
    ensures |r| == |s|
  {
    if |s| == 0 then []
    else
      assert s == s[..|s| - 1] + [s[|s| - 1]];
      Insert(s[|s| - 1], SortCells(s[..|s| - 1]))
  }

  /** Two sorted rearrangements of one multiset start with the same value. */
  lemma SortedHeads(a: seq<Cell>, b: seq<Cell>)
    requires Sorted(a) && Sorted(b) && multiset(a) == multiset(b) && |a| > 0
    ensures |b| > 0 && a[0] == b[0]
  {
    assert a[0] in multiset(b);
    var j :| 0 <= j < |b| && b[j] == a[0];
    assert b[0] in multiset(a);
    var i :| 0 <= i < |a| && a[i] == b[0];
    if j == 0 {
      LeReflexive(b[0]);
    }
    if i == 0 {
      LeReflexive(a[0]);
    }
    assert Le(b[0], b[j]) && Le(a[0], a[i]);
    LeAntisymmetric(a[0], b[0]);
  }

  /** There is only one sorted rearrangement of a multiset, so `SortCells`
      agrees with every correct sort, Python's included. */
  lemma {:induction false} SortedUnique(a: seq<Cell>, b: seq<Cell>)
    requires Sorted(a) && Sorted(b) && multiset(a) == multiset(b)
    ensures a == b
    decreases |a|
  {
    if |a| == 0 {
      assert |b| == |multiset(b)| == 0;
    } else {
      SortedHeads(a, b);
      assert a == [a[0]] + a[1..];
      assert b == [b[0]] + b[1..];
      assert multiset(a) == multiset{a[0]} + multiset(a[1..]);
      assert multiset(b) == multiset{b[0]} + multiset(b[1..]);
      assert multiset(a[1..]) == multiset(a) - multiset{a[0]};
      assert multiset(b[1..]) == multiset(b) - multiset{b[0]};
      SortedUnique(a[1..], b[1..]);
    }
  }

  /** A value occurs at most once in a sequence without repetitions. */
  lemma {:induction false} DistinctMultiplicity<T>(s: seq<T>, x: T)
    requires Distinct(s)
    ensures multiset(s)[x] <= 1
    decreases |s|
  {
    if |s| > 0 {
      assert s == [s[0]] + s[1..];
      assert Distinct(s[1..]);
      DistinctMultiplicity(s[1..], x);
      if x == s[0] {
        assert x !in s[1..];
      }
    }
  }

  /** A value found at two positions occurs at least twice. */
  lemma RepeatedMultiplicity<T>(s: seq<T>, i: int, j: int)
    requires 0 <= i < j < |s| && s[i] == s[j]
    ensures multiset(s)[s[i]] >= 2
  {
    assert s == s[..j] + s[j..];
    assert s[i] in multiset(s[..j]);
    assert s[j] in multiset(s[j..]);
  }

  /** Rearranging keeps a sequence free of repetitions. */
  lemma PermutationDistinct<T>(a: seq<T>, b: seq<T>)
    requires Distinct(a) && multiset(a) == multiset(b)
    ensures Distinct(b)
  {
    forall i, j | 0 <= i < j < |b|
      ensures b[i] != b[j]
    {
      if b[i] == b[j] {
        RepeatedMultiplicity(b, i, j);
        DistinctMultiplicity(a, b[i]);
      }
    }
  }

  /** A sorted sequence without repetitions is strictly increasing. */
  lemma SortedDistinctStrict(s: seq<Cell>)
    requires Sorted(s) && Distinct(s)
    ensures StrictlySorted(s)
  {
  }
}

=== FILE: wrappers.dfy ===
/** Failure-compatible result types shared by the table pipeline. */
module Wrappers {

  datatype Option<+T> = None | Some(value: T)

  /** A computation that either yields a value or stops with the error the
      Python code would raise at that point. */
  datatype Result<+T, +E> = Success(value: T) | Failure(error: E) {

    predicate IsFailure() {
      Failure?
    }

    function PropagateFailure<U>(): Result<U, E>
      requires Failure?
    {
      Failure(error)
    }

    function Extract(): T
      requires Success?
    {
      value
    }
  }
}
